=== FILE: README.md ===
# etl.py — a Dafny model of the posting expansion

`etl.py` loads an iiko OLAP export (an Excel sheet) into `raw.olap_postings`.
The header of the sheet is normalised with `norm`. Every data row with a
department and a product code fans out into one posting per transaction
column holding a non-zero amount. Each posting carries the report id, the
fixed period, the department, the product code (`to_sku_str`), the
transaction code, the amount (`to_num`) and `source_hash`, the SHA-256 of a
`|`-separated key made of those seven fields.

This project models that pure part in Dafny and proves what it promises:

- `Strings` — Python's `isspace`, `split()`, `" ".join`, `strip()` and the
  one-character `replace` calls.
- `Numerals` — `isdigit` over ASCII digits, `str(int)`, `zfill` and the
  zero padding of `str(date)`.
- `Decimals` — the decimal part of `float(str)`: optional sign, digits, at
  most one point; values are exact reals. It also holds a renderer whose
  output parses back to its exact value.
- `Etl` — cells, `norm`, `to_sku_str`, `to_num`.
- `Postings` — the five transaction kinds and their columns, the period, the
  hash key, the row loop of `main` as pure functions (and as the loop itself,
  as a method proved equal to them), and the validation of the header in front of it.

Two library functions are not modelled and are passed in as the fields of a
`Runtime` value:
- `sha`, the SHA-256 hex digest of the key;
- `floatText`, Python's `str()` of a float, used for the amount in the key
  and for a fractional product code.

Properties of the key are therefore stated about the key string before
hashing.

Some facts about `etl.py` that bound what the model covers:
- No row is filtered out as a totals row; every row with a department and a
  product code is expanded.
- The reporting period is fixed at 2026-01-01 to 2026-02-01 (etl.py:21-22).
- The postings carry no timestamps.
- The postings are written with a plain `insert`; nothing reconciles them
  with rows already stored.
- `source_hash` is the SHA-256 of the `|`-joined f-string of etl.py:145, with
  the amount written by `str(float)`.

Because the department is stripped (etl.py:132), rows that differ only in
trailing department whitespace get the same department
(`DepartmentIgnoresTrailingBlank`). The key is only unambiguous while no
field contains `|`: `HashKeyInjective` needs that condition, and
`HashKeyAmbiguous` shows two different department and product pairs that
share one key when it fails.

## Model

| member | source | states |
|---|---|---|
| Strings.Trim | etl.py:59-61 | `strip()` leaves no whitespace at either end, never lengthens, and gives "" exactly for an all-whitespace string |
| Strings.TrimAppendBlank | etl.py:132 | appending whitespace to a cell does not change what `strip()` gives |
| Strings.TrimPrependBlank | etl.py:79 | prepending whitespace does not change what `strip()` gives |
| Strings.TrimOfTrimmed | etl.py:61 | `strip()` leaves a string with no whitespace at either end unchanged |
| Strings.TrimAround | etl.py:59-61 | a trimmed text wrapped in whitespace on both sides comes out of `strip()` unchanged |
| Strings.TrimSlice | etl.py:59-61 | what `strip()` returns is the slice of the input between a blank prefix and a blank suffix |
| Strings.Words | etl.py:42 | every word `split()` returns is non-empty and free of whitespace |
| Strings.ConcatWords | etl.py:42 | `split()` loses only whitespace: its words glued together are the input's non-whitespace characters in order |
| Strings.SqueezeJoinWords | etl.py:42 | `" ".join` adds only whitespace |
| Strings.JoinWordsNormalized | etl.py:42 | joining words with single spaces leaves each space between two non-space characters, so no edge whitespace, no newline, no double space |
| Strings.WordsOfJoin | etl.py:42 | splitting a space-joined list of words gives the same words back |
| Strings.WordsEmptyIffBlank | etl.py:42 | `split()` is empty exactly for an all-whitespace string |
| Strings.WordsOutsideSpace | etl.py:42 | strings that differ only in which whitespace characters they hold split into the same words |
| Strings.ReplaceChar | etl.py:84 | `replace(a, b)` keeps the length, turns every `a` into `b` and leaves every other character where it was |
| Strings.ReplaceCharAppend | etl.py:84 | replacing works piecewise over a concatenation |
| Strings.RemoveChar | etl.py:83 | `replace(c, "")` leaves no `c` and never lengthens |
| Strings.RemoveCharAbsent | etl.py:83 | `replace(c, "")` is the identity on a string without `c` |
| Strings.RemoveCharAppend | etl.py:83 | deleting a character works piecewise over a concatenation |
| Strings.RemoveCharEnds | etl.py:83 | deleting a character found at neither end keeps both ends |
| Strings.RemoveCharKeepsPair | etl.py:83 | two other characters survive the deletion, in their order |
| Strings.RemoveCharSingle | etl.py:83 | on one character, `replace(c, "")` deletes `c` and keeps any other character, so it deletes rather than substitutes |
| Strings.RemoveCharKeeps | etl.py:83 | deleting `c` never brings in a character that was not in the input |
| Numerals.NatToDigits | etl.py:55 | `str(n)` of a natural number is digits without a leading zero that denote `n` |
| Numerals.IntToString | etl.py:55 | `str(i)` is digits denoting `i`, or '-' then digits denoting `-i` |
| Numerals.ZFill | etl.py:64 | `zfill(w)` has length max(w, len); on digits it only prepends zeros |
| Numerals.ZFillDigits | etl.py:64 | zero-filling digits leaves digits of the same value, ending with the input |
| Numerals.PadZerosDigits | etl.py:145 | a zero-padded date field is digits of width max(w, len) that keep their value |
| Decimals.ParseDecimal | etl.py:86 | a string `float` accepts is non-empty, has only digits, '.' and a leading sign, holds at most one '.' and at least one digit, and its value has that sign; every such text is accepted, as `Decimals.ParseDecimalPoint` and `Decimals.ParseDecimalInteger` state |
| Decimals.ParseRender | etl.py:85-86 | every plain decimal text parses back to its exact value |
| Decimals.ParseUnsignedAny | etl.py:86 | digits, a point and digits, with a digit on at least one side ("5.", ".5", "05.50"), parse to the whole part plus the scaled fraction |
| Decimals.ParseSigned | etl.py:86 | no sign, '+' or '-' in front of a parsing literal gives its value with that sign |
| Decimals.ParseDecimalPoint | etl.py:86 | every text of the grammar with a point is accepted, with its exact value |
| Decimals.ParseDecimalInteger | etl.py:86 | every signed or unsigned run of digits, leading zeros included, is accepted with its value |
| Decimals.RenderChars | etl.py:83-84 | a rendered amount has no space, no non-breaking space and no comma for the clean-up to touch |
| Etl.Norm | etl.py:41-42 | `norm` gives a normalised header with the same words as the input (so single spaces between words survive), keeps every non-whitespace character in order, and gives "" exactly for a blank header |
| Etl.NormIdempotent | etl.py:41-42 | normalising twice is normalising once |
| Etl.SqueezeNewlinesToSpaces | etl.py:42 | turning newlines into spaces changes no non-whitespace character and keeps blankness |
| Etl.NewlinesToSpacesNormalized | etl.py:42 | a normalised header has no newline left to replace |
| Etl.WordsNewlinesToSpaces | etl.py:42 | turning newlines into spaces does not change the words `split()` finds |
| Etl.ToSkuStr | etl.py:45-66 | a missing cell gives ""; every code is stripped; a code of digits is at least five long |
| Etl.SkuOfDigitString | etl.py:58-64 | a digit string is zero-filled to five places: digits of the same value, max(5, len) long, ending with the input |
| Etl.SkuOfLongDigitString | etl.py:63-64 | a digit string of five or more comes back unchanged |
| Etl.SkuOfOtherString | etl.py:58-66 | a string that is not all digits after stripping is only stripped |
| Etl.SkuOfNatural | etl.py:53-64 | a non-negative integer gives digits denoting it, max(5, digit count) long |
| Etl.SkuOfNegative | etl.py:53-66 | a negative integer keeps its sign and is not zero-filled |
| Etl.SkuOfWholeFloat | etl.py:53-55 | a whole float gives the same code as the integer |
| Etl.SkuOfFractionalFloat | etl.py:56-57 | a fractional float is coded like its `str()` text |
| Etl.SkuIdempotent | etl.py:45-66 | feeding a code back in as a string gives the same code |
| Etl.SkuOfOne | etl.py:47-48 | `to_sku_str(1) == "00001"` |
| Etl.SkuOfOneFloat | etl.py:48 | `to_sku_str(1.0) == "00001"` |
| Etl.SkuOfPaddedExample | etl.py:47 | `to_sku_str("00001") == "00001"` |
| Etl.SkuOfLettersExample | etl.py:58-66 | `to_sku_str("ABC12") == "ABC12"` |
| Etl.SkuOfSignedExample | etl.py:63-66 | `to_sku_str("-1") == "-1"`: the sign makes `isdigit` false |
| Etl.Delocalize | etl.py:83-84 | after the clean-up no space, non-breaking space or comma is left |
| Etl.DelocalizeTrimmed | etl.py:79-86 | after `strip()` the clean-up leaves no edge whitespace, so `float`'s own stripping has nothing to do |
| Etl.ToNum | etl.py:69-88 | missing and blank cells are 0, numbers are their value, a cleaned text that `float` accepts gives that value, and a non-zero amount from a string always comes from such a text |
| Etl.ReplaceBack | etl.py:84 | turning the points of a comma-free text into commas and back gives the text again |
| Etl.ToNumRussian | etl.py:71-86 | any amount written with a decimal comma reads back as its exact value |
| Etl.ToNumIgnoresGroupSeparator | etl.py:83 | a space or non-breaking space between digit groups changes nothing |
| Etl.ToNumIgnoresEdgeBlank | etl.py:79 | whitespace before or after an amount changes nothing |
| Etl.ToNumDecimalComma | etl.py:71-86 | every amount of the grammar written with a decimal comma, with or without a sign or leading zeros, reads as its exact value |
| Etl.CommaToPoint | etl.py:84 | the clean-up turns the decimal comma of such an amount into a point and changes nothing else |
| Etl.ToNumBlankExamples | etl.py:72-81 | a missing cell, "" and "   " are 0 |
| Etl.ToNumCommaExample | etl.py:71 | "53,500" is 53.5 |
| Etl.ToNumPlainExample | etl.py:84-86 | "1234,50" is 1234.5 |
| Etl.ToNumSpacedExample | etl.py:83-86 | "1 234,50" is 1234.5 |
| Etl.ToNumNonBreakingExample | etl.py:83-86 | `"1\u00a0234,50"`, with a non-breaking space, is 1234.5 |
| Etl.ToNumMixedSeparatorsExample | etl.py:83-88 | "1.234,5" becomes "1.234.5", which does not parse, so it is 0 |
| Etl.ToNumRejected | etl.py:83-88 | a cleaned-up text with two points or no digit is read as 0 |
| Etl.ToNumPointAndComma | etl.py:83-88 | any amount holding both a point and a comma is read as 0, the comma becoming a second point |
| Postings.CodeRoundTrip | etl.py:28-34 | each kind's code reads back as that kind, so codes are distinct, and none contains `|` |
| Postings.ColumnsDistinct | etl.py:28-34 | no two kinds read the same column |
| Postings.ColumnRequired | etl.py:118 | every transaction column is a required column |
| Postings.PeriodDates | etl.py:21-22 | the period dates are valid and render as "2026-01-01" and "2026-02-01" |
| Postings.DateTextFields | etl.py:145 | `str(date)` of a valid date is `YYYY-MM-DD`, and its fields read back as year, month and day |
| Postings.DateTextInjective | etl.py:145 | two valid dates with the same text are equal |
| Postings.DateTextNoSeparator | etl.py:145 | a date's text has no `|` |
| Postings.SplitJoinFields | etl.py:145 | fields free of `|` are recovered from their `|`-join by splitting |
| Postings.JoinFieldsInjective | etl.py:145 | fields free of `|` are determined by their join |
| Postings.HashKeyInjective | etl.py:144-146 | with no `|` in the free-text fields, equal keys mean equal report, period, department, product code, kind and amount text |
| Postings.HashKeyAmbiguous | etl.py:144-146 | a `|` moved between department and product code gives the same key and hash for different postings |
| Postings.DepartmentOf | etl.py:132 | the department is stripped, "" for a missing cell, and "" for a string exactly when it is blank |
| Postings.DepartmentIgnoresTrailingBlank | etl.py:132 | trailing whitespace in the department cell makes no difference |
| Postings.SameFieldsSameHash | etl.py:144-157 | valid postings agreeing on department, product code, kind and amount have the same hash and are equal |
| Postings.ColumnPostingsBuilt | etl.py:139-157 | the first k columns give at most k postings, each built from a non-zero amount of its own column |
| Postings.ColumnPostingsOrdered | etl.py:139-159 | postings come in column order, at most one per kind |
| Postings.ColumnPostingsKinds | etl.py:139-142 | a kind has a posting exactly when its amount is non-zero |
| Postings.RowPostingsValid | etl.py:131-159 | a row gives at most five postings, in column order, each valid and carrying the row's department, code and the amount of its column |
| Postings.RowPostingsKinds | etl.py:132-142 | a row gives a posting of a kind exactly when it has a department, a product code and a non-zero amount in that column |
| Postings.ExpandRowsAppend | etl.py:128-159 | expanding two batches of rows in turn is expanding them together |
| Postings.ExpandRowsMembers | etl.py:128-159 | a posting is produced exactly when some row gives it |
| Postings.ExpandRowsValid | etl.py:128-159 | all rows give at most five postings each, every one valid |
| Postings.CollectColumns | etl.py:139-159 | the column loop as written collects exactly the postings of the non-zero columns |
| Postings.CollectRow | etl.py:131-159 | one pass of the row loop as written collects exactly the row's postings |
| Postings.CollectPostings | etl.py:128-159 | the nested loop as written collects exactly the expansion of all rows |
| Postings.NormalizeHeader | etl.py:116 | each name is in normal form, has the words of its header, and is empty exactly for a blank header |
| Postings.Absent | etl.py:118-119 | the missing columns are exactly the required ones not in the header |
| Postings.Repeated | etl.py:132-140 | the repeated columns are exactly the required ones named more than once |
| Postings.RowOf | etl.py:131 | a row's keys are exactly the header names |
| Postings.RowOfUnique | etl.py:131 | a name that occurs once is keyed to the cell in its own position |
| Postings.NothingMissing | etl.py:118-126 | when no required column is missing, all seven are in the header |
| Postings.SheetRows | etl.py:115-131 | when no required column is missing, every data row has every column the loop reads |
| Postings.Prepare | etl.py:115-159 | fails listing exactly the missing required columns when some are missing, and only then; fails for repeated columns exactly when a row reads a repeated required column, naming exactly the required columns that repeat; a success is the expansion of the sheet's rows, every posting valid and at most five per row |
| Postings.PrepareRepeatedKeyColumn | etl.py:131-133 | a repeated department or product column fails the run as soon as there is a data row |
| Postings.PrepareRepeatedTxColumn | etl.py:135-140 | a repeated transaction column fails the run when some row has a department and a product code |
| Postings.PrepareNoRepeats | etl.py:115-159 | with every required column present exactly once, the sheet always loads |

## Left out

- Reading `.env`, `require_env`, `pd.read_excel`, the psycopg2 connection, the insert, the commit and every `print` (etl.py:9-18, 91-113, 161-186) are I/O and are not modelled. `Prepare` starts from the sheet as read, and its error values stand for the `RuntimeError` and the pandas failures.
- SHA-256 and Python's `str(float)` are parameters (`Runtime.sha`, `Runtime.floatText`). Nothing is assumed of them beyond being functions.
- Floats are exact reals. Binary rounding, NaN and infinities in numeric cells are not modelled; NaN cells are `Missing`, as `pd.isna` treats them.
- Decimals.ParseDecimal: accepts only sign, digits and one point. Python's `float` also takes exponents, `_` separators, `inf`, `nan` and non-ASCII digits. Such strings count as 0 here, while Python would give a value: a `"1e3"` cell gives a posting of 1000.0 in the program and none here, and an `"inf"` cell, which `read_excel` does not treat as missing, gives a posting with an infinite amount.
- Numerals.IsDigits: ASCII digits only, where `str.isdigit` also accepts other Unicode digits.
- Cells that are `bool`, numpy scalars or `datetime` values are not modelled; a cell is missing, an int, a float or a string.
- Header cells are strings; `norm`'s `str(s)` of a non-string header is not modelled. Duplicate raw headers, which pandas renames on reading, are not modelled. Headers that become equal only after `norm` are modelled by `Repeated`.
- `Prepare` reports a repeated required column as an error value. In the program, pandas returns several cells where one is expected and the first row that reads them raises; that is what `Repeated` and `Kept` stand for.
- The row loop is modelled over rows keyed by column name. The position of a row in the sheet (`iterrows`' index) is not used by the code and is not modelled.
- scripts/dump_neon_ddl.py and scripts/dump_neon_schema.py (schema dump utilities) are not part of this model.

=== FILE: decimals.dfy ===
/** The part of Python's `float(str)` that plain decimal amounts use: an
    optional sign, digits, at most one '.', and at least one digit. Values are
    exact reals. Every other string is rejected. */
module Decimals {
  import opened Results
  import opened Strings
  import opened Numerals

  /** `f / 10^k`, the value of `k` fraction digits denoting `f`. */
  function Scaled(f: nat, k: nat): (v: real)
    ensures 0.0 <= v
    ensures v == 0.0 <==> f == 0
  {
    if k == 0 then f as real else Scaled(f, k - 1) / 10.0
  }

  /** No two points in the text. */
  predicate AtMostOnePoint(s: string) {
    forall i, j :: 0 <= i < j < |s| && s[i] == '.' ==> s[j] != '.'
  }

  /** Some character of the text is a digit. */
  predicate HasDigit(s: string) {
    exists i :: 0 <= i < |s| && IsDigitChar(s[i])
  }

  /** An unsigned literal: `digits`, `digits.`, `.digits` or `digits.digits`.
      A parsed literal holds a digit and at most one point. */
  function ParseUnsigned(s: string): (r: Option<real>)
    ensures r.Some? ==> r.value >= 0.0
    ensures r.Some? ==> AtMostOnePoint(s) && HasDigit(s)
  {
    var k := IndexOf(s, '.');
    if k == |s| then
      if IsDigits(s) then
        assert IsDigitChar(s[0]);
        Some(DigitsValue(s) as real)
      else None
    else
      var whole := s[..k];
      var frac := s[k + 1..];
      if AllDigits(whole) && AllDigits(frac) && |whole| + |frac| > 0 then
        PointAndDigits(s, k);
        Some(DigitsValue(whole) as real + Scaled(DigitsValue(frac), |frac|))
      else None
  }

  /** Digits on both sides of the first point, and at least one of them. */
  lemma PointAndDigits(s: string, k: nat)
    requires k < |s| && IndexOf(s, '.') == k
    requires AllDigits(s[..k]) && AllDigits(s[k + 1..]) && k + (|s| - k - 1) > 0
    ensures AtMostOnePoint(s) && HasDigit(s)
  {
    forall i, j | 0 <= i < j < |s| && s[i] == '.' ensures s[j] != '.' {
      assert i == k;
      assert s[j] == s[k + 1..][j - k - 1];
    }
    if k > 0 {
      assert s[0] == s[..k][0];
    } else {
      assert s[1] == s[k + 1..][0];
    }
  }

  /** A sign in front changes neither the points nor the digits. */
  lemma SignedShape(s: string)
    requires |s| > 0 && !IsDigitChar(s[0]) && s[0] != '.'
    requires AtMostOnePoint(s[1..]) && HasDigit(s[1..])
    ensures AtMostOnePoint(s) && HasDigit(s)
  {
    forall i, j | 0 <= i < j < |s| && s[i] == '.' ensures s[j] != '.' {
      assert s[i] == s[1..][i - 1] && s[j] == s[1..][j - 1];
    }
    var i :| 0 <= i < |s[1..]| && IsDigitChar(s[1..][i]);
    assert s[i + 1] == s[1..][i];
  }

  /** `float(s)` on the decimal grammar; `None` where Python would raise
      `ValueError`. A parsed string is non-empty and made only of digits,
      a sign in front and a '.'. */
  function ParseDecimal(s: string): (r: Option<real>)
    ensures r.Some? ==> |s| > 0
    ensures r.Some? ==> forall i :: 0 <= i < |s| ==>
      IsDigitChar(s[i]) || s[i] == '.' || (i == 0 && (s[i] == '-' || s[i] == '+'))
    ensures r.Some? ==> AtMostOnePoint(s) && HasDigit(s)
    ensures r.Some? && |s| > 0 && s[0] == '-' ==> r.value <= 0.0
    ensures r.Some? && |s| > 0 && s[0] != '-' ==> r.value >= 0.0
  {
    if |s| > 0 && s[0] == '-' then
      match ParseUnsigned(s[1..])
      case Some(v) => SignedShape(s); Some(-v)
      case None => None
    else if |s| > 0 && s[0] == '+' then
      var r := ParseUnsigned(s[1..]);
      if r.Some? then SignedShape(s); r else r
    else ParseUnsigned(s)
  }

  /** The value of a decimal written with a sign, a whole part and the
      fraction digits `fd`. */
  function DecimalValue(negative: bool, whole: nat, fd: string): real
    requires AllDigits(fd)
  {
    var v := whole as real + Scaled(DigitsValue(fd), |fd|);
    if negative then -v else v
  }

  /** The plain decimal text of such a value: a '-' when negative, the whole
      part without leading zeros, then, when there are fraction digits, a '.'
      and those digits. */
  function Render(negative: bool, whole: nat, fd: string): string
    requires AllDigits(fd)
  {
    if negative then "-" + Magnitude(whole, fd) else Magnitude(whole, fd)
  }

  /** `Render` without the sign. */
  function Magnitude(whole: nat, fd: string): string {
    NatToDigits(whole) + (if |fd| == 0 then "" else "." + fd)
  }

  lemma IndexOfAfterDigits(whole: string, rest: string)
    requires AllDigits(whole)
    requires |rest| > 0 && rest[0] == '.'
    ensures IndexOf(whole + rest, '.') == |whole|
  {
    assert forall i :: 0 <= i < |whole| ==> (whole + rest)[i] == whole[i];
    assert (whole + rest)[|whole|] == '.';
  }

  /** `digits.digits` parses to the whole part plus the scaled fraction. */
  lemma ParseUnsignedPoint(w: string, fd: string)
    requires IsDigits(w) && AllDigits(fd)
    ensures ParseUnsigned(w + ("." + fd)).Some?
    ensures ParseUnsigned(w + ("." + fd)).value == DigitsValue(w) as real + Scaled(DigitsValue(fd), |fd|)
  {
    var s := w + ("." + fd);
    IndexOfAfterDigits(w, "." + fd);
    WholeBeforePoint(w, fd);
    FractionAfterPoint(w, fd);
    ParseUnsignedAt(s, |w|, DigitsValue(w), Scaled(DigitsValue(fd), |fd|));
  }

  lemma WholeBeforePoint(w: string, fd: string)
    requires AllDigits(w)
    ensures AllDigits((w + ("." + fd))[..|w|])
    ensures DigitsValue((w + ("." + fd))[..|w|]) == DigitsValue(w)
  {
    assert (w + ("." + fd))[..|w|] == w;
  }

  lemma FractionAfterPoint(w: string, fd: string)
    requires AllDigits(fd)
    ensures AllDigits((w + ("." + fd))[|w| + 1..])
    ensures Scaled(DigitsValue((w + ("." + fd))[|w| + 1..]), |(w + ("." + fd))[|w| + 1..]|) == Scaled(DigitsValue(fd), |fd|)
  {
    assert (w + ("." + fd))[|w| + 1..] == fd;
  }

  /** A literal whose first '.' is at `k`, with digits on both sides, parses
      to the value before the point plus the scaled value after it. */
  lemma ParseUnsignedAt(s: string, k: nat, a: nat, b: real)
    requires k < |s| && IndexOf(s, '.') == k && k > 0
    requires AllDigits(s[..k]) && AllDigits(s[k + 1..])
    requires DigitsValue(s[..k]) == a && Scaled(DigitsValue(s[k + 1..]), |s[k + 1..]|) == b
    ensures ParseUnsigned(s).Some? && ParseUnsigned(s).value == a as real + b
  {
  }

  /** Digits alone parse to their value. */
  lemma ParseUnsignedDigits(w: string)
    requires IsDigits(w)
    ensures ParseUnsigned(w).Some? && ParseUnsigned(w).value == DigitsValue(w) as real
  {
    assert forall i :: 0 <= i < |w| ==> w[i] != '.';
  }

  lemma ParseUnsignedMagnitude(whole: nat, fd: string)
    requires AllDigits(fd)
    ensures ParseUnsigned(Magnitude(whole, fd)).Some?
    ensures ParseUnsigned(Magnitude(whole, fd)).value == DecimalValue(false, whole, fd)
  {
    var w := NatToDigits(whole);
    if |fd| == 0 {
      assert Magnitude(whole, fd) == w;
      ParseUnsignedDigits(w);
    } else {
      ParseUnsignedPoint(w, fd);
    }
  }

  lemma ParseMinus(t: string, v: real)
    requires ParseUnsigned(t).Some? && ParseUnsigned(t).value == v
    ensures ParseDecimal("-" + t).Some? && ParseDecimal("-" + t).value == -v
  {
    assert ("-" + t)[1..] == t;
  }

  lemma ParseNoSign(t: string)
    requires |t| > 0 && t[0] != '-' && t[0] != '+'
    ensures ParseDecimal(t) == ParseUnsigned(t)
  {
  }

  lemma ParsePlus(t: string)
    ensures ParseDecimal("+" + t) == ParseUnsigned(t)
  {
    assert ("+" + t)[1..] == t;
  }

  /** Any literal with a point and a digit on at least one side parses:
      "5.", ".5" and "05.50" included. */
  lemma ParseUnsignedAny(w: string, f: string)
    requires AllDigits(w) && AllDigits(f) && |w| + |f| > 0
    ensures ParseUnsigned(w + ("." + f)).Some?
    ensures ParseUnsigned(w + ("." + f)).value == DigitsValue(w) as real + Scaled(DigitsValue(f), |f|)
  {
    IndexOfAfterDigits(w, "." + f);
    WholeBeforePoint(w, f);
    FractionAfterPoint(w, f);
    assert |(w + ("." + f))[|w| + 1..]| == |f|;
  }

  /** The sign in front of an unsigned literal: none, '+' or '-'. */
  predicate IsSign(sign: string) {
    sign == "" || sign == "+" || sign == "-"
  }

  /** Putting a sign in front of a literal that parses gives its value with
      that sign. */
  lemma ParseSigned(sign: string, t: string, v: real)
    requires IsSign(sign)
    requires |t| > 0 && t[0] != '-' && t[0] != '+'
    requires ParseUnsigned(t).Some? && ParseUnsigned(t).value == v
    ensures ParseDecimal(sign + t).Some?
    ensures ParseDecimal(sign + t).value == if sign == "-" then -v else v
  {
    if sign == "-" {
      ParseMinus(t, v);
    } else if sign == "+" {
      ParsePlus(t);
    } else {
      assert sign + t == t;
      ParseNoSign(t);
    }
  }

  /** Every text of the grammar with a point is accepted, with its value:
      an optional sign, digits, a point, digits, and a digit somewhere. */
  lemma ParseDecimalPoint(sign: string, w: string, f: string)
    requires IsSign(sign) && AllDigits(w) && AllDigits(f) && |w| + |f| > 0
    ensures ParseDecimal(sign + (w + ("." + f))).Some?
    ensures ParseDecimal(sign + (w + ("." + f))).value == DecimalValue(sign == "-", DigitsValue(w), f)
  {
    var t := w + ("." + f);
    var v := DigitsValue(w) as real + Scaled(DigitsValue(f), |f|);
    var d := DecimalValue(sign == "-", DigitsValue(w), f);
    ParseUnsignedAny(w, f);
    LiteralStart(w, f);
    assert d == if sign == "-" then -v else v;
    ParseSigned(sign, t, v);
  }

  /** Such a literal starts with a digit or the point, never a sign. */
  lemma LiteralStart(w: string, f: string)
    requires AllDigits(w)
    ensures var t := w + ("." + f); |t| > 0 && t[0] != '-' && t[0] != '+'
  {
    if |w| > 0 {
      assert (w + ("." + f))[0] == w[0];
    }
  }

  /** Every text of the grammar without a point is accepted, with its value:
      an optional sign and digits, leading zeros included. */
  lemma ParseDecimalInteger(sign: string, w: string)
    requires IsSign(sign) && IsDigits(w)
    ensures ParseDecimal(sign + w).Some?
    ensures ParseDecimal(sign + w).value == DecimalValue(sign == "-", DigitsValue(w), "")
  {
    ParseUnsignedDigits(w);
    assert IsDigitChar(w[0]);
    ParseSigned(sign, w, DigitsValue(w) as real);
  }

  /** Parsing a rendered amount gives back its exact value. */
  lemma ParseRender(negative: bool, whole: nat, fd: string)
    requires AllDigits(fd)
    ensures ParseDecimal(Render(negative, whole, fd)).Some?
    ensures ParseDecimal(Render(negative, whole, fd)).value == DecimalValue(negative, whole, fd)
  {
    ParseUnsignedMagnitude(whole, fd);
    if negative {
      ParseMinus(Magnitude(whole, fd), DecimalValue(false, whole, fd));
    } else {
      assert Magnitude(whole, fd)[0] == NatToDigits(whole)[0];
      ParseNoSign(Magnitude(whole, fd));
    }
  }

  /** The characters a rendered amount is made of. */
  predicate RenderedChar(c: char) {
    IsDigitChar(c) || c == '.' || c == '-'
  }

  predicate AllRendered(s: string) {
    forall i :: 0 <= i < |s| ==> RenderedChar(s[i])
  }

  lemma AllRenderedAppend(a: string, b: string)
    requires AllRendered(a) && AllRendered(b)
    ensures AllRendered(a + b)
  {
    forall i | 0 <= i < |a + b| ensures RenderedChar((a + b)[i]) {
      if i >= |a| {
        assert (a + b)[i] == b[i - |a|];
      }
    }
  }

  /** A rendered amount is non-empty, made of digits, a '.' and a leading
      '-' only (so never a comma or whitespace), and ends with a digit. */
  lemma RenderChars(negative: bool, whole: nat, fd: string)
    requires AllDigits(fd)
    ensures |Render(negative, whole, fd)| > 0
    ensures AllRendered(Render(negative, whole, fd))
    ensures IsDigitChar(Render(negative, whole, fd)[|Render(negative, whole, fd)| - 1])
  {
    var w := NatToDigits(whole);
    var m := Magnitude(whole, fd);
    assert AllRendered(w);
    if |fd| > 0 {
      assert AllRendered(fd);
      AllRenderedAppend(".", fd);
      AllRenderedAppend(w, "." + fd);
      assert m[|m| - 1] == fd[|fd| - 1];
    } else {
      assert m == w;
    }
    if negative {
      AllRenderedAppend("-", m);
      assert ("-" + m)[|"-" + m| - 1] == m[|m| - 1];
    }
  }
}

=== FILE: etl.dfy ===
/** The value-normalising helpers of etl.py: spreadsheet cells, `norm` for
    column headers, `to_sku_str` for product codes and `to_num` for amounts
    written with the Russian decimal comma. */
module Etl {
  import opened Results
  import opened Strings
  import opened Numerals
  import opened Decimals

  /** A spreadsheet cell as pandas hands it over: missing (None or NaN), a
      Python int, a finite Python float (as its exact value), or a string. */
  datatype Cell = Missing | IntNum(i: int) | RealNum(x: real) | Str(s: string)

  /** The library behaviour the ETL relies on but that is not modelled here:
      `sha` is the SHA-256 hex digest of a string's UTF-8 bytes, and
      `floatText` is Python's `str()` of a float. */
  datatype Runtime = Runtime(sha: string -> string, floatText: real -> string)

  /** Width product codes made of digits are zero-filled to. */
  const SkuWidth: nat := 5

  /** `str(c)` of a present cell. */
  function CellText(rt: Runtime, c: Cell): string
    requires !c.Missing?
  {
    match c
    case IntNum(i) => IntToString(i)
    case RealNum(x) => rt.floatText(x)
    case Str(s) => s
  }

  /** `str.replace("\n", " ")`: nothing but the newlines change. */
  function NewlinesToSpaces(s: string): (r: string)
    ensures |r| == |s|
    ensures '\n' !in r
  {
    ReplaceChar(s, '\n', ' ')
  }

  lemma {:induction false} SqueezeNewlinesToSpaces(s: string)
    ensures Squeeze(NewlinesToSpaces(s)) == Squeeze(s)
    ensures IsBlank(NewlinesToSpaces(s)) <==> IsBlank(s)
    decreases |s|
  {
    var r := NewlinesToSpaces(s);
    assert IsBlank(r) <==> IsBlank(s) by {
      assert forall i :: 0 <= i < |s| ==> (IsSpace(r[i]) <==> IsSpace(s[i]));
    }
    if |s| > 0 {
      assert r[1..] == NewlinesToSpaces(s[1..]);
      SqueezeNewlinesToSpaces(s[1..]);
    }
  }

  /** A header `norm` has produced has no newline left to replace. */
  lemma NewlinesToSpacesNormalized(t: string)
    requires Normalized(t)
    ensures NewlinesToSpaces(t) == t
  {
  }

  /** `norm(s)`, applied to every column header: newlines become spaces, the
      text is split on whitespace and joined back with single spaces, then
      stripped. The result has no leading or trailing whitespace, no newline
      and no double space; it keeps every non-whitespace character of the
      input, in order; and it is empty exactly when the input is blank. */
  function Norm(s: string): (r: string)
    ensures Normalized(r)
    ensures Squeeze(r) == Squeeze(s)
    ensures Words(r) == Words(s)
    ensures r == "" <==> IsBlank(s)
  {
    NormShape(s);
    Trim(JoinWords(Words(NewlinesToSpaces(s))))
  }

  lemma NormShape(s: string)
    ensures var r := Trim(JoinWords(Words(NewlinesToSpaces(s))));
      Normalized(r) && Squeeze(r) == Squeeze(s) && Words(r) == Words(s) && (r == "" <==> IsBlank(s))
  {
    var ws := Words(NewlinesToSpaces(s));
    var j := JoinWords(ws);
    JoinWordsNormalized(ws);
    NormalizedTrimmed(j);
    TrimOfTrimmed(j);
    assert Trim(j) == j;
    NormKeepsCharacters(s);
    NormBlank(s);
    NormKeepsWords(s);
    assert j == "" <==> ws == [];
  }

  /** Joining the words with single spaces keeps the words, and so does
      turning newlines into spaces. */
  lemma NormKeepsWords(s: string)
    ensures Words(JoinWords(Words(NewlinesToSpaces(s)))) == Words(s)
  {
    WordsOfJoin(Words(NewlinesToSpaces(s)));
    WordsNewlinesToSpaces(s);
  }

  /** A newline and a space are both whitespace to `split()`. */
  lemma WordsNewlinesToSpaces(s: string)
    ensures Words(NewlinesToSpaces(s)) == Words(s)
  {
    assert SameOutsideSpace(NewlinesToSpaces(s), s);
    WordsOutsideSpace(NewlinesToSpaces(s), s);
  }

  lemma NormalizedTrimmed(t: string)
    requires Normalized(t)
    ensures Trimmed(t)
  {
    if |t| > 0 {
      assert !IsSpace(t[0]);
      assert !IsSpace(t[|t| - 1]);
    }
  }

  lemma NormKeepsCharacters(s: string)
    ensures Squeeze(JoinWords(Words(NewlinesToSpaces(s)))) == Squeeze(s)
  {
    var ws := Words(NewlinesToSpaces(s));
    SqueezeJoinWords(ws);
    ConcatWords(NewlinesToSpaces(s));
    SqueezeNewlinesToSpaces(s);
  }

  lemma NormBlank(s: string)
    ensures Words(NewlinesToSpaces(s)) == [] <==> IsBlank(s)
  {
    SqueezeNewlinesToSpaces(s);
    WordsEmptyIffBlank(NewlinesToSpaces(s));
  }

  /** Normalising a header twice changes nothing more. */
  lemma NormIdempotent(s: string)
    ensures Norm(Norm(s)) == Norm(s)
  {
    var ws := Words(NewlinesToSpaces(s));
    var t := Norm(s);
    JoinWordsNormalized(ws);
    TrimOfTrimmed(JoinWords(ws));
    assert t == JoinWords(ws);
    NewlinesToSpacesNormalized(t);
    WordsOfJoin(ws);
    TrimOfTrimmed(t);
  }

  /** The product-code text before zero-filling: `str(int(x))` for a whole
      number, `str(x)` for any other number, and the stripped string for a
      string. */
  function SkuText(rt: Runtime, x: Cell): string
    requires !x.Missing?
  {
    match x
    case IntNum(i) => IntToString(i)
    case RealNum(v) => if v.Floor as real == v then IntToString(v.Floor) else rt.floatText(v)
    case Str(s) => Trim(s)
  }

  /** `to_sku_str(x)`: a missing cell gives the empty code; otherwise the text
      is stripped and, when it is all digits, zero-filled to five places. The
      code is always stripped, and a code made of digits is at least five
      long. */
  function ToSkuStr(rt: Runtime, x: Cell): (r: string)
    ensures x.Missing? ==> r == ""
    ensures Trimmed(r)
    ensures IsDigits(r) ==> |r| >= SkuWidth
  {
    if x.Missing? then ""
    else
      var s := Trim(SkuText(rt, x));
      if IsDigits(s) then PaddedCode(s); ZFill(s, SkuWidth) else s
  }

  /** Zero-filling a run of digits leaves a run of digits, which has no
      whitespace at either end. */
  lemma PaddedCode(s: string)
    requires IsDigits(s)
    ensures IsDigits(ZFill(s, SkuWidth))
    ensures Trimmed(ZFill(s, SkuWidth))
  {
    var r := ZFill(s, SkuWidth);
    ZFillDigits(s, SkuWidth);
    assert IsDigitChar(r[0]) && IsDigitChar(r[|r| - 1]);
  }

  /** A string of digits is zero-filled to five places and otherwise kept:
      the code is digits, denotes the same number, ends with the input, and is
      exactly max(5, length) long. */
  lemma SkuOfDigitString(rt: Runtime, s: string)
    requires IsDigits(Trim(s))
    ensures var r := ToSkuStr(rt, Str(s)); var t := Trim(s);
      && IsDigits(r)
      && DigitsValue(r) == DigitsValue(t)
      && |r| == (if |t| >= SkuWidth then |t| else SkuWidth)
      && r[|r| - |t|..] == t
  {
    var t := Trim(s);
    TrimOfTrimmed(t);
    ZFillDigits(t, SkuWidth);
  }

  /** In particular a code that already has five or more digits comes back
      unchanged, as "00001" does. */
  lemma SkuOfLongDigitString(rt: Runtime, s: string)
    requires IsDigits(s) && |s| >= SkuWidth
    ensures ToSkuStr(rt, Str(s)) == s
  {
    assert IsDigitChar(s[0]) && IsDigitChar(s[|s| - 1]);
    TrimOfTrimmed(s);
    assert SkuText(rt, Str(s)) == s;
    assert ZFill(s, SkuWidth) == s;
  }

  /** Any other string, such as "ABC12" or "-1", is only stripped. */
  lemma SkuOfOtherString(rt: Runtime, s: string)
    requires !IsDigits(Trim(s))
    ensures ToSkuStr(rt, Str(s)) == Trim(s)
  {
    TrimOfTrimmed(Trim(s));
  }

  /** A non-negative whole number becomes its digits zero-filled to five
      places: the code denotes the number and is max(5, digit count) long. */
  lemma SkuOfNatural(rt: Runtime, n: int)
    requires n >= 0
    ensures var r := ToSkuStr(rt, IntNum(n)); var d := NatToDigits(n);
      && IsDigits(r)
      && DigitsValue(r) == n
      && |r| == (if |d| >= SkuWidth then |d| else SkuWidth)
  {
    var d := NatToDigits(n);
    TrimOfTrimmed(d);
    ZFillDigits(d, SkuWidth);
  }

  /** A negative whole number keeps its minus sign and is not zero-filled. */
  lemma SkuOfNegative(rt: Runtime, n: int)
    requires n < 0
    ensures ToSkuStr(rt, IntNum(n)) == "-" + NatToDigits(-n)
  {
    var s := IntToString(n);
    assert Trimmed(s);
    TrimOfTrimmed(s);
  }

  /** A float holding a whole number, such as 1.0, gives the same code as the
      integer. */
  lemma SkuOfWholeFloat(rt: Runtime, v: real)
    requires v.Floor as real == v
    ensures ToSkuStr(rt, RealNum(v)) == ToSkuStr(rt, IntNum(v.Floor))
  {
  }

  /** A float with a fractional part is coded as its `str()` text would be. */
  lemma SkuOfFractionalFloat(rt: Runtime, v: real)
    requires v.Floor as real != v
    ensures ToSkuStr(rt, RealNum(v)) == ToSkuStr(rt, Str(rt.floatText(v)))
  {
    TrimOfTrimmed(Trim(rt.floatText(v)));
    SameSkuText(rt, RealNum(v), Str(rt.floatText(v)));
  }

  /** Cells whose stripped texts agree get the same code. */
  lemma SameSkuText(rt: Runtime, x: Cell, y: Cell)
    requires !x.Missing? && !y.Missing?
    requires Trim(SkuText(rt, x)) == Trim(SkuText(rt, y))
    ensures ToSkuStr(rt, x) == ToSkuStr(rt, y)
  {
  }

  /** Feeding a code back in as a string gives the same code. */
  lemma SkuIdempotent(rt: Runtime, x: Cell)
    ensures ToSkuStr(rt, Str(ToSkuStr(rt, x))) == ToSkuStr(rt, x)
  {
    var r := ToSkuStr(rt, x);
    TrimOfTrimmed(r);
  }

  /** The integer 1 becomes "00001". */
  lemma SkuOfOne(rt: Runtime)
    ensures ToSkuStr(rt, IntNum(1)) == "00001"
  {
    OneText("1");
  }

  /** So does the float 1.0. */
  lemma SkuOfOneFloat(rt: Runtime)
    ensures ToSkuStr(rt, RealNum(1.0)) == "00001"
  {
    SkuOfWholeFloat(rt, 1.0);
    SkuOfOne(rt);
  }

  // The literal is passed in as a parameter fixed by `requires` rather than
  // written in the body, so that the verifier does not unfold the literal's
  // characters at every call site.
  lemma OneText(s: string)
    requires s == "1"
    ensures IntToString(1) == s
    ensures Trim(s) == s && IsDigits(s)
    ensures ZFill(s, SkuWidth) == "00001"
  {
    assert NatToDigits(1) == [DigitChar(1)];
    TrimOfTrimmed(s);
    OneFilled(s);
  }

  // The literal is a parameter for the same reason as in `OneText`.
  lemma OneFilled(s: string)
    requires s == "1"
    ensures ZFill(s, SkuWidth) == "00001"
  {
    assert Zeros(4) == "0000" by {
      assert Zeros(1) == "0";
      assert Zeros(2) == "00";
      assert Zeros(3) == "000";
    }
  }

  /** "00001" stays as it is. */
  lemma SkuOfPaddedExample(rt: Runtime)
    ensures ToSkuStr(rt, Str("00001")) == "00001"
  {
    SkuOfLongDigitString(rt, "00001");
  }

  /** "ABC12" is not all digits and is not zero-filled. */
  lemma SkuOfLettersExample(rt: Runtime)
    ensures ToSkuStr(rt, Str("ABC12")) == "ABC12"
  {
    StrippedNonDigits("ABC12");
    SkuOfOtherString(rt, "ABC12");
  }

  /** Nor is "-1": `isdigit` is false because of the sign. */
  lemma SkuOfSignedExample(rt: Runtime)
    ensures ToSkuStr(rt, Str("-1")) == "-1"
  {
    StrippedNonDigits("-1");
    SkuOfOtherString(rt, "-1");
  }

  lemma StrippedNonDigits(s: string)
    requires |s| > 0 && !IsSpace(s[0]) && !IsSpace(s[|s| - 1]) && !IsDigitChar(s[0])
    ensures Trim(s) == s && !IsDigits(s)
  {
    TrimOfTrimmed(s);
  }

  /** The amount text after the locale clean-up: plain and non-breaking
      spaces are deleted and the decimal comma becomes a point. */
  function Delocalize(t: string): (r: string)
    ensures ' ' !in r && '\U{a0}' !in r && ',' !in r
  {
    var u := RemoveChar(RemoveChar(t, ' '), '\U{a0}');
    assert ' ' !in u by {
      RemoveCharKeeps(RemoveChar(t, ' '), '\U{a0}', ' ');
    }
    var r := ReplaceChar(u, ',', '.');
    assert forall i :: 0 <= i < |r| ==> r[i] != ' ' && r[i] != '\U{a0}' && r[i] != ',';
    r
  }

  /** After `strip()` the clean-up leaves no whitespace at either end, so
      the stripping `float()` does on its own has nothing left to remove. */
  lemma DelocalizeTrimmed(t: string)
    requires Trimmed(t)
    ensures Trimmed(Delocalize(t))
  {
    if |t| > 0 {
      var first, last := t[0], t[|t| - 1];
      assert !IsSpace(first) && !IsSpace(last);
      RemoveCharEnds(t, ' ');
      var u := RemoveChar(t, ' ');
      assert u[0] == first && u[|u| - 1] == last;
      RemoveCharEnds(u, '\U{a0}');
      var v := RemoveChar(u, '\U{a0}');
      assert v[0] == first && v[|v| - 1] == last;
      var r := ReplaceChar(v, ',', '.');
      assert r == Delocalize(t);
      assert r[0] == (if first == ',' then '.' else first);
      assert r[|r| - 1] == (if last == ',' then '.' else last);
      assert !IsSpace(r[0]) && !IsSpace(r[|r| - 1]);
    }
  }

  /** `to_num(x)`: missing cells and blank strings are 0, numbers are their own
      value, and other strings are stripped, cleaned of spaces and the decimal
      comma, and parsed; anything that does not parse is 0. So a non-zero
      amount from a string always comes from a successful parse. */
  function ToNum(x: Cell): (r: real)
    ensures x.Missing? ==> r == 0.0
    ensures x.IntNum? ==> r == x.i as real
    ensures x.RealNum? ==> r == x.x
    ensures x.Str? && IsBlank(x.s) ==> r == 0.0
    ensures x.Str? && r != 0.0 ==>
      ParseDecimal(Delocalize(Trim(x.s))).Some? && ParseDecimal(Delocalize(Trim(x.s))).value == r
    ensures x.Str? && ParseDecimal(Delocalize(Trim(x.s))).Some? ==>
      r == ParseDecimal(Delocalize(Trim(x.s))).value
  {
    match x
    case Missing => 0.0
    case IntNum(i) => i as real
    case RealNum(v) => v
    case Str(s) =>
      var t := Trim(s);
      if t == "" then 0.0
      else
        match ParseDecimal(Delocalize(t))
        case Some(v) => v
        case None => 0.0
  }

  /** An amount written the Russian way: the plain rendering with its point
      turned into a comma. */
  function RenderRussian(negative: bool, whole: nat, fd: string): string
    requires AllDigits(fd)
  {
    ReplaceChar(Render(negative, whole, fd), '.', ',')
  }

  lemma {:induction false} ReplaceBack(s: string)
    requires ',' !in s
    ensures ReplaceChar(ReplaceChar(s, '.', ','), ',', '.') == s
  {
    var r := ReplaceChar(ReplaceChar(s, '.', ','), ',', '.');
    assert forall i :: 0 <= i < |s| ==> r[i] == s[i];
  }

  /** Every amount written with a decimal comma reads back as its exact
      value. */
  lemma ToNumRussian(negative: bool, whole: nat, fd: string)
    requires AllDigits(fd)
    ensures ToNum(Str(RenderRussian(negative, whole, fd))) == DecimalValue(negative, whole, fd)
  {
    var p := Render(negative, whole, fd);
    var s := RenderRussian(negative, whole, fd);
    RenderChars(negative, whole, fd);
    assert forall i :: 0 <= i < |p| ==> !IsSpace(p[i]) && p[i] != ',' by {
      forall i | 0 <= i < |p| ensures !IsSpace(p[i]) && p[i] != ',' {
        assert RenderedChar(p[i]);
      }
    }
    assert forall i :: 0 <= i < |s| ==> !IsSpace(s[i]) && s[i] != ' ' && s[i] != '\U{a0}';
    assert ' ' !in s && '\U{a0}' !in s;
    RemoveCharAbsent(s, ' ');
    RemoveCharAbsent(s, '\U{a0}');
    TrimOfTrimmed(s);
    ReplaceBack(p);
    assert Delocalize(s) == p;
    ParseRender(negative, whole, fd);
  }

  lemma DelocalizeAppend(a: string, b: string)
    ensures Delocalize(a + b) == Delocalize(a) + Delocalize(b)
  {
    var sa, sb := RemoveChar(a, ' '), RemoveChar(b, ' ');
    RemoveCharAppend(a, b, ' ');
    assert RemoveChar(a + b, ' ') == sa + sb;
    var x, y := RemoveChar(sa, '\U{a0}'), RemoveChar(sb, '\U{a0}');
    RemoveCharAppend(sa, sb, '\U{a0}');
    assert RemoveChar(RemoveChar(a + b, ' '), '\U{a0}') == x + y;
    ReplaceCharAppend(x, y, ',', '.');
  }

  /** Any amount of the decimal grammar written with a comma, such as
      "+05,50", ",5" or "-5,", reads as its value. */
  lemma ToNumDecimalComma(sign: string, w: string, f: string)
    requires IsSign(sign) && AllDigits(w) && AllDigits(f) && |w| + |f| > 0
    ensures ToNum(Str(sign + (w + ("," + f)))) == DecimalValue(sign == "-", DigitsValue(w), f)
  {
    var t := sign + (w + ("," + f));
    var p := sign + (w + ("." + f));
    CommaText(sign, w, f);
    ParseDecimalPoint(sign, w, f);
    assert Delocalize(Trim(t)) == p;
  }

  /** The text is already stripped, and its clean-up only turns the comma
      into a point. */
  lemma CommaText(sign: string, w: string, f: string)
    requires IsSign(sign) && AllDigits(w) && AllDigits(f) && |w| + |f| > 0
    ensures Trim(sign + (w + ("," + f))) == sign + (w + ("," + f))
    ensures Delocalize(sign + (w + ("," + f))) == sign + (w + ("." + f))
  {
    CommaTextChars(sign, w, f);
    CommaTextTrimmed(sign + (w + ("," + f)));
    CommaTextClean(sign + (w + ("," + f)));
    CommaToPoint(sign, w, f);
  }

  lemma CommaTextTrimmed(t: string)
    requires |t| > 0
    requires forall i :: 0 <= i < |t| ==> IsDigitChar(t[i]) || t[i] == '+' || t[i] == '-' || t[i] == ','
    ensures Trim(t) == t
  {
    assert !IsSpace(t[0]) && !IsSpace(t[|t| - 1]);
    TrimOfTrimmed(t);
  }

  lemma CommaTextClean(t: string)
    requires forall i :: 0 <= i < |t| ==> IsDigitChar(t[i]) || t[i] == '+' || t[i] == '-' || t[i] == ','
    ensures Delocalize(t) == ReplaceChar(t, ',', '.')
  {
    assert ' ' !in t && '\U{a0}' !in t;
    RemoveCharAbsent(t, ' ');
    RemoveCharAbsent(t, '\U{a0}');
  }

  /** The text holds digits, a sign and the comma, and nothing else. */
  lemma CommaTextChars(sign: string, w: string, f: string)
    requires IsSign(sign) && AllDigits(w) && AllDigits(f)
    ensures var t := sign + (w + ("," + f));
      forall i :: 0 <= i < |t| ==> IsDigitChar(t[i]) || t[i] == '+' || t[i] == '-' || t[i] == ','
  {
    var t := sign + (w + ("," + f));
    forall i | 0 <= i < |t| ensures IsDigitChar(t[i]) || t[i] == '+' || t[i] == '-' || t[i] == ',' {
      if i < |sign| {
        assert t[i] == sign[i];
      } else if i < |sign| + |w| {
        assert t[i] == w[i - |sign|];
      } else if i > |sign| + |w| {
        assert t[i] == f[i - |sign| - |w| - 1];
      }
    }
  }

  lemma CommaToPoint(sign: string, w: string, f: string)
    requires IsSign(sign) && AllDigits(w) && AllDigits(f)
    ensures ReplaceChar(sign + (w + ("," + f)), ',', '.') == sign + (w + ("." + f))
  {
    ReplaceCharAppend(sign, w + ("," + f), ',', '.');
    ReplaceCharAppend(w, "," + f, ',', '.');
    ReplaceCharAppend(",", f, ',', '.');
    assert ReplaceChar(",", ',', '.') == ".";
    NoCommaUnchanged(sign);
    NoCommaUnchanged(w);
    NoCommaUnchanged(f);
  }

  lemma NoCommaUnchanged(s: string)
    requires ',' !in s
    ensures ReplaceChar(s, ',', '.') == s
  {
  }

  /** Whitespace around an amount, such as the trailing space in "5 ",
      changes nothing. */
  lemma ToNumIgnoresEdgeBlank(w1: string, s: string, w2: string)
    requires IsBlank(w1) && IsBlank(w2)
    ensures ToNum(Str(w1 + s + w2)) == ToNum(Str(s))
  {
    TrimAppendBlank(w1 + s, w2);
    TrimPrependBlank(w1, s);
  }

  /** A plain or non-breaking space used as a thousands separator inside an
      amount changes nothing, as in "1 234,50". */
  lemma ToNumIgnoresGroupSeparator(a: string, c: char, b: string)
    requires c == ' ' || c == '\U{a0}'
    requires |a| > 0 && !IsSpace(a[0])
    requires |b| > 0 && !IsSpace(b[|b| - 1])
    ensures ToNum(Str(a + [c] + b)) == ToNum(Str(a + b))
  {
    GroupSeparatorText(a, c, b);
    SameNumText(a + [c] + b, a + b);
  }

  /** With the separator or without it, the text is non-blank and cleans up
      to the same thing. */
  lemma GroupSeparatorText(a: string, c: char, b: string)
    requires c == ' ' || c == '\U{a0}'
    requires |a| > 0 && !IsSpace(a[0])
    requires |b| > 0 && !IsSpace(b[|b| - 1])
    ensures Trim(a + [c] + b) != "" && Trim(a + b) != ""
    ensures Delocalize(Trim(a + [c] + b)) == Delocalize(Trim(a + b))
  {
    var s := a + [c] + b;
    assert s[0] == a[0] && s[|s| - 1] == b[|b| - 1];
    assert (a + b)[0] == a[0] && (a + b)[|a + b| - 1] == b[|b| - 1];
    TrimOfTrimmed(s);
    TrimOfTrimmed(a + b);
    DelocalizeAppend(a + [c], b);
    DelocalizeAppend(a, [c]);
    DelocalizeAppend(a, b);
    assert Delocalize([c]) == "";
    assert Delocalize(a + [c]) == Delocalize(a);
  }

  /** Non-blank strings that clean up to the same text read as the same
      amount. */
  lemma SameNumText(x: string, y: string)
    requires Trim(x) != "" && Trim(y) != ""
    requires Delocalize(Trim(x)) == Delocalize(Trim(y))
    ensures ToNum(Str(x)) == ToNum(Str(y))
  {
  }

  /** A cleaned-up text that `float` rejects, because it holds two points
      or no digit at all, is read as 0. */
  lemma ToNumRejected(x: string)
    requires !AtMostOnePoint(Delocalize(Trim(x))) || !HasDigit(Delocalize(Trim(x)))
    ensures ToNum(Str(x)) == 0.0
  {
  }

  /** An amount holding both a point and a comma, such as "1.234,5", is
      read as 0: the comma becomes a second point. */
  lemma ToNumPointAndComma(x: string, i: nat, j: nat)
    requires i < |Trim(x)| && j < |Trim(x)|
    requires Trim(x)[i] == '.' && Trim(x)[j] == ','
    ensures ToNum(Str(x)) == 0.0
  {
    var t := Trim(x);
    if i < j {
      TwoPoints(t, i, j);
    } else {
      TwoPoints(t, j, i);
    }
    ToNumRejected(x);
  }

  /** A point and a comma both end up as points after the clean-up. */
  lemma TwoPoints(t: string, i: nat, j: nat)
    requires i < j < |t|
    requires (t[i] == '.' || t[i] == ',') && (t[j] == '.' || t[j] == ',')
    ensures !AtMostOnePoint(Delocalize(t))
  {
    RemoveCharKeepsPair(t, ' ', i, j);
    var u := RemoveChar(t, ' ');
    var k, l :| 0 <= k < l < |u| && u[k] == t[i] && u[l] == t[j];
    RemoveCharKeepsPair(u, '\U{a0}', k, l);
    var v := RemoveChar(u, '\U{a0}');
    var m, n :| 0 <= m < n < |v| && v[m] == t[i] && v[n] == t[j];
    var r := ReplaceChar(v, ',', '.');
    assert r[m] == '.' && r[n] == '.';
  }

  /** Missing cells and blank strings count as no movement. */
  lemma ToNumBlankExamples()
    ensures ToNum(Missing) == 0.0
    ensures ToNum(Str("")) == 0.0
    ensures ToNum(Str("   ")) == 0.0
  {
    assert IsBlank("   ");
  }

  /** "53,500" is fifty-three and a half. */
  lemma ToNumCommaExample()
    ensures ToNum(Str("53,500")) == 53.5
  {
    CommaExampleText("53", "500", "53,500");
    ToNumDecimalComma("", "53", "500");
    CommaExampleDigits("53", "500");
    CommaExampleValue("53", "500");
  }

  // The literals are parameters for the same reason as in `OneText`.
  lemma CommaExampleDigits(w: string, f: string)
    requires w == "53" && f == "500"
    ensures AllDigits(w) && AllDigits(f) && |f| == 3
    ensures DigitsValue(w) == 53 && DigitsValue(f) == 500
  {
    DigitsValueFirst(w);
    DigitsValueFirst(w[1..]);
    assert w[1..][1..] == "";
    DigitsValueFirst(f);
    DigitsValueFirst(f[1..]);
    DigitsValueFirst(f[2..]);
    assert f[1..][1..] == f[2..] && f[2..][1..] == "";
  }

  // The literals are parameters for the same reason as in `OneText`.
  lemma CommaExampleText(w: string, f: string, s: string)
    requires w == "53" && f == "500" && s == "53,500"
    ensures AllDigits(w) && AllDigits(f) && |w| + |f| > 0
    ensures s == "" + (w + ("," + f))
  {
  }

  lemma CommaExampleValue(w: string, f: string)
    requires AllDigits(w) && AllDigits(f) && |f| == 3
    requires DigitsValue(w) == 53 && DigitsValue(f) == 500
    ensures DecimalValue(false, DigitsValue(w), f) == 53.5
  {
    assert Scaled(500, 1) == 50.0;
    assert Scaled(500, 3) == 0.5;
  }

  /** "1234,50" reads as 1234.5. */
  lemma ToNumPlainExample()
    ensures ToNum(Str("1234,50")) == 1234.5
  {
    PlainExampleText("1234", "50", "1234,50");
    ToNumDecimalComma("", "1234", "50");
    PlainExampleDigits("1234", "50");
    PlainExampleValue("1234", "50");
  }

  // The literals are parameters for the same reason as in `OneText`.
  lemma PlainExampleText(w: string, f: string, s: string)
    requires w == "1234" && f == "50" && s == "1234,50"
    ensures AllDigits(w) && AllDigits(f) && |w| + |f| > 0
    ensures s == "" + (w + ("," + f))
  {
  }

  // The literals are parameters for the same reason as in `OneText`.
  lemma PlainExampleDigits(w: string, f: string)
    requires w == "1234" && f == "50"
    ensures AllDigits(w) && AllDigits(f) && |f| == 2
    ensures DigitsValue(w) == 1234 && DigitsValue(f) == 50
  {
    PlainWholeDigits(w);
    DigitsValueFirst(f);
    DigitsValueFirst(f[1..]);
    assert f[1..][1..] == "";
  }

  // The literal is a parameter for the same reason as in `OneText`.
  lemma PlainWholeDigits(w: string)
    requires w == "1234"
    ensures AllDigits(w) && DigitsValue(w) == 1234
  {
    var a, b, c := w[1..], w[2..], w[3..];
    assert a[1..] == b && b[1..] == c && c[1..] == "";
    DigitsValueFirst(c);
    DigitsValueFirst(b);
    DigitsValueFirst(a);
    DigitsValueFirst(w);
  }

  lemma PlainExampleValue(w: string, f: string)
    requires AllDigits(w) && AllDigits(f) && |f| == 2
    requires DigitsValue(w) == 1234 && DigitsValue(f) == 50
    ensures DecimalValue(false, DigitsValue(w), f) == 1234.5
  {
    assert Scaled(50, 2) == 0.5;
  }

  /** So does "1 234,50", with a space between the thousands. */
  lemma ToNumSpacedExample()
    ensures ToNum(Str("1 234,50")) == 1234.5
  {
    GroupedAmount("1", ' ', "234,50", "1 234,50");
  }

  /** And so does the same with a non-breaking space, as Excel exports it. */
  lemma ToNumNonBreakingExample()
    ensures ToNum(Str("1\U{a0}234,50")) == 1234.5
  {
    GroupedAmount("1", '\U{a0}', "234,50", "1\U{a0}234,50");
  }

  // The literals are parameters for the same reason as in `OneText`.
  lemma GroupedAmount(a: string, c: char, b: string, s: string)
    requires a == "1" && b == "234,50"
    requires c == ' ' || c == '\U{a0}'
    requires s == a + [c] + b
    ensures ToNum(Str(s)) == 1234.5
  {
    GroupedExampleParts(a, b);
    ToNumPlainExample();
    ToNumIgnoresGroupSeparator(a, c, b);
  }

  // The literals are parameters for the same reason as in `OneText`.
  lemma GroupedExampleParts(a: string, b: string)
    requires a == "1" && b == "234,50"
    ensures |a| > 0 && !IsSpace(a[0]) && |b| > 0 && !IsSpace(b[|b| - 1])
    ensures a + b == "1234,50"
  {
  }

  /** A point used as a thousands separator next to a decimal comma, as in
      "1.234,5", leaves two points, which `float` rejects: the amount counts
      as 0. */
  lemma ToNumMixedSeparatorsExample()
    ensures ToNum(Str("1.234,5")) == 0.0
  {
    TrimOfTrimmed("1.234,5");
    MixedSeparatorsText("1.234,5");
  }

  // The literal is a parameter for the same reason as in `OneText`.
  lemma MixedSeparatorsText(t: string)
    requires t == "1.234,5"
    ensures Delocalize(t) == "1.234.5"
    ensures ParseDecimal("1.234.5").None?
  {
    assert ' ' !in t && '\U{a0}' !in t;
    RemoveCharAbsent(t, ' ');
    RemoveCharAbsent(t, '\U{a0}');
    var r := ReplaceChar(t, ',', '.');
    assert r[5] == '.';
    assert forall i | 0 <= i < 7 && i != 5 :: r[i] == t[i];
    assert IndexOf("1.234.5", '.') == 1;
    assert "1.234.5"[2..][3] == '.';
  }
}

=== FILE: numerals.dfy ===
/** Decimal digit strings: `str.isdigit()` over ASCII digits, the value of a
    digit string, `str(int)`, and `str.zfill`. */
module Numerals {

  predicate IsDigitChar(c: char) {
    '0' <= c <= '9'
  }

  /** Every character is a digit; the empty string qualifies. */
  predicate AllDigits(s: string) {
    forall i :: 0 <= i < |s| ==> IsDigitChar(s[i])
  }

  /** `s.isdigit()`: non-empty and made of digits only. */
  predicate IsDigits(s: string) {
    |s| > 0 && AllDigits(s)
  }

  function DigitValue(c: char): (d: nat)
    requires IsDigitChar(c)
    ensures d < 10
  {
    c as int - '0' as int
  }

  function DigitChar(d: nat): (c: char)
    requires d < 10
    ensures IsDigitChar(c) && DigitValue(c) == d
  {
    ('0' as int + d) as char
  }

  /** The number a digit string denotes, most significant digit first; the
      empty string denotes 0. */
  function DigitsValue(s: string): nat
    requires AllDigits(s)
  {
    if |s| == 0 then 0
    else DigitsValue(s[..|s| - 1]) * 10 + DigitValue(s[|s| - 1])
  }

  lemma Regroup(a: int, w: int, m: int, c: int)
    ensures (a * w + m) * 10 + c == a * (10 * w) + (m * 10 + c)
  {
  }

  /** The value of a digit string read from its first digit: the leading
      digit weighs `10^(|s| - 1)`. */
  lemma {:induction false} DigitsValueFirst(s: string)
    requires |s| > 0 && AllDigits(s)
    ensures DigitsValue(s) == DigitValue(s[0]) * Pow10(|s| - 1) + DigitsValue(s[1..])
    decreases |s|
  {
    if |s| > 1 {
      var p, t := s[..|s| - 1], s[1..];
      var m := p[1..];
      assert m == t[..|t| - 1] && t[|t| - 1] == s[|s| - 1] && p[0] == s[0];
      DigitsValueFirst(p);
      var a, w, c := DigitValue(s[0]), Pow10(|p| - 1), DigitValue(s[|s| - 1]);
      assert DigitsValue(s) == DigitsValue(p) * 10 + c;
      assert DigitsValue(t) == DigitsValue(m) * 10 + c;
      assert Pow10(|s| - 1) == 10 * w;
      Regroup(a, w, DigitsValue(m), c);
    } else {
      assert s[..0] == "" && s[1..] == "";
    }
  }

  /** `str(n)` for a non-negative integer: the digits of `n` with no leading
      zero, which denote `n` again. */
  function NatToDigits(n: nat): (s: string)
    ensures IsDigits(s)
    ensures DigitsValue(s) == n
    ensures |s| == 1 || s[0] != '0'
  {
    if n < 10 then [DigitChar(n)]
    else
      var s := NatToDigits(n / 10) + [DigitChar(n % 10)];
      assert s[..|s| - 1] == NatToDigits(n / 10);
      s
  }

  function Pow10(k: nat): (p: nat)
    ensures p >= 1
  {
    if k == 0 then 1 else 10 * Pow10(k - 1)
  }

  /** A number below `10^k` has at most `k` digits. */
  lemma {:induction false} NatToDigitsBound(n: nat, k: nat)
    requires 1 <= k && n < Pow10(k)
    ensures |NatToDigits(n)| <= k
  {
    if n >= 10 {
      assert k > 1;
      assert n / 10 < Pow10(k - 1);
      NatToDigitsBound(n / 10, k - 1);
    }
  }

  /** `str(i)` for any integer: a minus sign in front of the digits of a
      negative number. */
  function IntToString(i: int): (s: string)
    ensures i >= 0 ==> IsDigits(s) && DigitsValue(s) == i
    ensures i < 0 ==> |s| > 1 && s[0] == '-' && IsDigits(s[1..]) && DigitsValue(s[1..]) == -i
  {
    if i < 0 then "-" + NatToDigits(-i) else NatToDigits(i)
  }

  function Zeros(k: nat): (z: string)
    ensures |z| == k
    ensures forall i :: 0 <= i < k ==> z[i] == '0'
  {
    if k == 0 then "" else Zeros(k - 1) + "0"
  }

  /** `s.zfill(width)`: zeros are added on the left, after a leading sign if
      there is one, until the string is `width` long; a string that is
      already that long comes back as it is. */
  function ZFill(s: string, width: nat): (r: string)
    ensures |r| == if |s| >= width then |s| else width
    ensures AllDigits(s) ==> r == Zeros(|r| - |s|) + s
  {
    if |s| >= width then s
    else
      var fill := Zeros(width - |s|);
      if |s| > 0 && (s[0] == '+' || s[0] == '-') then [s[0]] + fill + s[1..]
      else fill + s
  }

  /** Leading zeros do not change the value of a digit string. */
  lemma {:induction false} LeadingZeros(k: nat, s: string)
    requires AllDigits(s)
    ensures AllDigits(Zeros(k) + s)
    ensures DigitsValue(Zeros(k) + s) == DigitsValue(s)
    decreases |s|, k
  {
    var t := Zeros(k) + s;
    if |s| > 0 {
      var s' := s[..|s| - 1];
      assert t[..|t| - 1] == Zeros(k) + s';
      LeadingZeros(k, s');
    } else if k > 0 {
      assert t == Zeros(k - 1) + "0";
      assert t[..|t| - 1] == Zeros(k - 1) + "";
      LeadingZeros(k - 1, "");
      assert Zeros(k - 1) + "" == Zeros(k - 1);
    } else {
      assert t == "";
    }
  }

  /** On a digit string `zfill` only prepends zeros: the result is still
      digits, ends with the input, and denotes the same number. */
  lemma ZFillDigits(s: string, width: nat)
    requires AllDigits(s)
    ensures AllDigits(ZFill(s, width))
    ensures DigitsValue(ZFill(s, width)) == DigitsValue(s)
    ensures ZFill(s, width)[|ZFill(s, width)| - |s|..] == s
  {
    var r := ZFill(s, width);
    LeadingZeros(|r| - |s|, s);
  }

  /** `"%0*d"`-style padding: zeros in front of `s` until it is `width`
      long. */
  function PadZeros(s: string, width: nat): string
    decreases width - |s|
  {
    if |s| >= width then s else PadZeros("0" + s, width)
  }

  /** Padding only prepends zeros, up to the width. */
  lemma {:induction false} PadZerosShape(s: string, width: nat)
    ensures PadZeros(s, width) == Zeros(if |s| >= width then 0 else width - |s|) + s
    decreases width - |s|
  {
    if |s| < width {
      PadZerosShape("0" + s, width);
      var k := width - |s|;
      assert Zeros(k) == Zeros(k - 1) + "0";
      assert Zeros(k - 1) + ("0" + s) == (Zeros(k - 1) + "0") + s;
    } else {
      assert Zeros(0) + s == s;
    }
  }

  /** A padded run of digits is still digits, is `max(width, |s|)` long and
      denotes the same number. */
  lemma PadZerosDigits(s: string, width: nat)
    requires AllDigits(s)
    ensures |PadZeros(s, width)| == (if |s| >= width then |s| else width)
    ensures AllDigits(PadZeros(s, width))
    ensures DigitsValue(PadZeros(s, width)) == DigitsValue(s)
  {
    PadZerosShape(s, width);
    LeadingZeros(if |s| >= width then 0 else width - |s|, s);
  }
}

=== FILE: postings.dfy ===
/** The row expansion at the heart of etl.py's `main`: each spreadsheet row
    with a department and a product code fans out into one posting per
    transaction column holding a non-zero amount, and every posting carries
    the SHA-256 of a '|'-separated identity key. */
module Postings {
  import opened Results
  import opened Strings
  import opened Numerals
  import opened Etl

  /** The five transaction kinds, one per amount column of the report. */
  datatype TxType = Production | InventoryCorrection | OutgoingInvoice | SessionWriteoff | Writeoff
  {
    /** The code stored in `transaction_type`. */
    function Code(): string {
      match this
      case Production => "PRODUCTION"
      case InventoryCorrection => "INVENTORY_CORRECTION"
      case OutgoingInvoice => "OUTGOING_INVOICE"
      case SessionWriteoff => "SESSION_WRITEOFF"
      case Writeoff => "WRITEOFF"
    }

    /** The spreadsheet column the kind's amounts are read from. */
    function Column(): string {
      match this
      case Production => "Акт приготовления"
      case InventoryCorrection => "Инвентаризация"
      case OutgoingInvoice => "Расходная накладная"
      case SessionWriteoff => "Реализация товаров"
      case Writeoff => "Списание"
    }

    /** Where the kind's column comes in the order the columns are visited. */
    function Index(): (i: nat)
      ensures i < |TxOrder| && TxOrder[i] == this
    {
      match this
      case Production => 0
      case InventoryCorrection => 1
      case OutgoingInvoice => 2
      case SessionWriteoff => 3
      case Writeoff => 4
    }
  }

  /** The transaction columns in the order the loop visits them. */
  const TxOrder: seq<TxType> := [Production, InventoryCorrection, OutgoingInvoice, SessionWriteoff, Writeoff]

  /** The kind a stored `transaction_type` code stands for. */
  function OfCode(code: string): Option<TxType> {
    if code == "PRODUCTION" then Some(Production)
    else if code == "INVENTORY_CORRECTION" then Some(InventoryCorrection)
    else if code == "OUTGOING_INVOICE" then Some(OutgoingInvoice)
    else if code == "SESSION_WRITEOFF" then Some(SessionWriteoff)
    else if code == "WRITEOFF" then Some(Writeoff)
    else None
  }

  /** Reading a stored code gives back its kind, so no two kinds share a
      code; and no code contains the key separator. */
  lemma CodeRoundTrip(t: TxType)
    ensures OfCode(t.Code()) == Some(t)
    ensures '|' !in t.Code()
  {
  }

  /** No two kinds read from the same column. */
  lemma ColumnsDistinct(a: TxType, b: TxType)
    requires a.Column() == b.Column()
    ensures a == b
  {
  }

  const DepartmentColumn := "Торговое предприятие"
  const ProductColumn := "Артикул элемента номенклатуры"

  /** The columns the spreadsheet must have, in the order missing ones are
      reported. */
  const RequiredColumns: seq<string> :=
    [DepartmentColumn, ProductColumn] + [Production.Column(), InventoryCorrection.Column(),
     OutgoingInvoice.Column(), SessionWriteoff.Column(), Writeoff.Column()]

  lemma ColumnRequired(t: TxType)
    ensures t.Column() in RequiredColumns
  {
  }

  // ---------------------------------------------------------------------
  // Dates

  /** A calendar date as `datetime.date` holds it. */
  datatype Date = Date(year: nat, month: nat, day: nat)

  /** The bounds `datetime.date` puts on each field taken alone: year 1 to
      9999, month 1 to 12, day 1 to 31. The day is not checked against the
      length of its month. */
  predicate ValidDate(d: Date) {
    1 <= d.year <= 9999 && 1 <= d.month <= 12 && 1 <= d.day <= 31
  }

  /** `str(d)`: year, month and day padded with zeros to 4, 2 and 2 places
      and joined with '-'. */
  function DateText(d: Date): string {
    PadZeros(NatToDigits(d.year), 4) + "-" + PadZeros(NatToDigits(d.month), 2) + "-" + PadZeros(NatToDigits(d.day), 2)
  }

  /** The reporting period, fixed in the code. */
  const DateFrom := Date(2026, 1, 1)
  const DateTo := Date(2026, 2, 1)

  /** The report being loaded: its id and the period it covers. */
  datatype Report = Report(id: string, dateFrom: Date, dateTo: Date)

  /** The report `main` loads: the configured id over the fixed period. */
  function TheReport(reportId: string): Report {
    Report(reportId, DateFrom, DateTo)
  }

  /** A zero-filled field of a valid date has exactly its width, in digits
      that denote the number. */
  lemma PaddedField(n: nat, width: nat)
    requires 1 <= width && n < Pow10(width)
    ensures |PadZeros(NatToDigits(n), width)| == width
    ensures AllDigits(PadZeros(NatToDigits(n), width))
    ensures DigitsValue(PadZeros(NatToDigits(n), width)) == n
  {
    NatToDigitsBound(n, width);
    PadZerosDigits(NatToDigits(n), width);
  }

  /** The text of a valid date is ten characters, `YYYY-MM-DD`, and its three
      digit fields read back as the year, month and day: the text determines
      the date. */
  lemma DateTextFields(d: Date)
    requires ValidDate(d)
    ensures var t := DateText(d);
      && |t| == 10 && t[4] == '-' && t[7] == '-'
      && AllDigits(t[..4]) && DigitsValue(t[..4]) == d.year
      && AllDigits(t[5..7]) && DigitsValue(t[5..7]) == d.month
      && AllDigits(t[8..]) && DigitsValue(t[8..]) == d.day
  {
    var y := PadZeros(NatToDigits(d.year), 4);
    var m := PadZeros(NatToDigits(d.month), 2);
    var dd := PadZeros(NatToDigits(d.day), 2);
    PaddedField(d.year, 4);
    PaddedField(d.month, 2);
    PaddedField(d.day, 2);
    var t := DateText(d);
    assert t == y + "-" + m + "-" + dd;
    assert t[..4] == y;
    assert t[5..7] == m;
    assert t[8..] == dd;
  }

  /** Two valid dates with the same text are the same date. */
  lemma DateTextInjective(a: Date, b: Date)
    requires ValidDate(a) && ValidDate(b)
    requires DateText(a) == DateText(b)
    ensures a == b
  {
    DateTextFields(a);
    DateTextFields(b);
  }

  lemma DigitsNoSeparator(s: string)
    requires AllDigits(s)
    ensures '|' !in s
  {
    assert forall i :: 0 <= i < |s| ==> s[i] != '|' by {
      forall i | 0 <= i < |s| ensures s[i] != '|' {
        assert IsDigitChar(s[i]);
      }
    }
  }

  /** A date's text has no key separator in it. */
  lemma DateTextNoSeparator(d: Date)
    ensures '|' !in DateText(d)
  {
    PadZerosDigits(NatToDigits(d.year), 4);
    PadZerosDigits(NatToDigits(d.month), 2);
    PadZerosDigits(NatToDigits(d.day), 2);
    DigitsNoSeparator(PadZeros(NatToDigits(d.year), 4));
    DigitsNoSeparator(PadZeros(NatToDigits(d.month), 2));
    DigitsNoSeparator(PadZeros(NatToDigits(d.day), 2));
  }

  lemma PeriodDates()
    ensures ValidDate(DateFrom) && ValidDate(DateTo)
    ensures DateText(DateFrom) == "2026-01-01"
    ensures DateText(DateTo) == "2026-02-01"
  {
    assert NatToDigits(2026) == "2026";
    assert NatToDigits(1) == "1";
    assert NatToDigits(2) == "2";
    assert PadZeros("1", 2) == "01";
    assert PadZeros("2", 2) == "02";
  }

  // ---------------------------------------------------------------------
  // The identity key

  /** `"|".join(fs)`: the fields separated by '|'. */
  function JoinFields(fs: seq<string>): string {
    if |fs| == 0 then ""
    else if |fs| == 1 then fs[0]
    else fs[0] + "|" + JoinFields(fs[1..])
  }

  /** `s.split("|")`: the pieces between separators; there is always at
      least one. */
  function SplitFields(s: string): (fs: seq<string>)
    ensures |fs| > 0
    decreases |s|
  {
    var k := IndexOf(s, '|');
    if k == |s| then [s] else [s[..k]] + SplitFields(s[k + 1..])
  }

  /** No field contains the separator. */
  predicate Unseparated(fs: seq<string>) {
    forall i :: 0 <= i < |fs| ==> '|' !in fs[i]
  }

  lemma IndexOfBeforeSeparator(a: string, rest: string)
    requires '|' !in a
    requires |rest| > 0 && rest[0] == '|'
    ensures IndexOf(a + rest, '|') == |a|
  {
    assert forall i :: 0 <= i < |a| ==> (a + rest)[i] == a[i];
    assert (a + rest)[|a|] == '|';
  }

  /** Joining fields free of '|' can be undone by splitting. */
  lemma {:induction false} SplitJoinFields(fs: seq<string>)
    requires |fs| > 0 && Unseparated(fs)
    ensures SplitFields(JoinFields(fs)) == fs
    decreases |fs|
  {
    if |fs| == 1 {
      assert '|' !in fs[0];
      assert IndexOf(fs[0], '|') == |fs[0]|;
    } else {
      var rest := JoinFields(fs[1..]);
      var s := fs[0] + ("|" + rest);
      assert JoinFields(fs) == s;
      IndexOfBeforeSeparator(fs[0], "|" + rest);
      assert s[..|fs[0]|] == fs[0];
      assert s[|fs[0]| + 1..] == rest;
      SplitJoinFields(fs[1..]);
      assert [fs[0]] + fs[1..] == fs;
    }
  }

  /** So fields free of '|' are determined by their join. */
  lemma JoinFieldsInjective(fs: seq<string>, gs: seq<string>)
    requires |fs| > 0 && Unseparated(fs)
    requires |gs| > 0 && Unseparated(gs)
    requires JoinFields(fs) == JoinFields(gs)
    ensures fs == gs
  {
    SplitJoinFields(fs);
    SplitJoinFields(gs);
  }

  /** The seven fields of the identity key, in key order: report id, the two
      period dates, department, product code, transaction code and the text
      of the amount. */
  function KeyFields(rt: Runtime, report: Report, department: string, productNum: string,
                     t: TxType, amount: real): (fs: seq<string>)
    ensures |fs| == 7
  {
    [report.id, DateText(report.dateFrom), DateText(report.dateTo), department, productNum, t.Code(), rt.floatText(amount)]
  }

  /** The key whose SHA-256 becomes `source_hash`. */
  function HashKey(rt: Runtime, report: Report, department: string, productNum: string,
                   t: TxType, amount: real): string
  {
    JoinFields(KeyFields(rt, report, department, productNum, t, amount))
  }

  /** When the report ids, departments, product codes and amount texts are
      free of '|', the key determines them, the period and the transaction
      kind. */
  lemma HashKeyInjective(rt: Runtime,
                         r1: Report, dep1: string, prod1: string, t1: TxType, a1: real,
                         r2: Report, dep2: string, prod2: string, t2: TxType, a2: real)
    requires '|' !in r1.id && '|' !in dep1 && '|' !in prod1 && '|' !in rt.floatText(a1)
    requires '|' !in r2.id && '|' !in dep2 && '|' !in prod2 && '|' !in rt.floatText(a2)
    requires ValidDate(r1.dateFrom) && ValidDate(r1.dateTo) && ValidDate(r2.dateFrom) && ValidDate(r2.dateTo)
    requires HashKey(rt, r1, dep1, prod1, t1, a1) == HashKey(rt, r2, dep2, prod2, t2, a2)
    ensures r1 == r2 && dep1 == dep2 && prod1 == prod2 && t1 == t2
    ensures rt.floatText(a1) == rt.floatText(a2)
  {
    KeyFieldsUnseparated(rt, r1, dep1, prod1, t1, a1);
    KeyFieldsUnseparated(rt, r2, dep2, prod2, t2, a2);
    var fs := KeyFields(rt, r1, dep1, prod1, t1, a1);
    var gs := KeyFields(rt, r2, dep2, prod2, t2, a2);
    JoinFieldsInjective(fs, gs);
    assert fs[5] == gs[5];
    CodeRoundTrip(t1);
    CodeRoundTrip(t2);
    DateTextInjective(r1.dateFrom, r2.dateFrom);
    DateTextInjective(r1.dateTo, r2.dateTo);
  }

  lemma KeyFieldsUnseparated(rt: Runtime, r: Report, dep: string, prod: string, t: TxType, a: real)
    requires '|' !in r.id && '|' !in dep && '|' !in prod && '|' !in rt.floatText(a)
    ensures Unseparated(KeyFields(rt, r, dep, prod, t, a))
  {
    DateTextNoSeparator(r.dateFrom);
    DateTextNoSeparator(r.dateTo);
    CodeRoundTrip(t);
  }

  /** Joining two non-empty lists puts one separator between their joins. */
  lemma {:induction false} JoinFieldsAppend(fs: seq<string>, gs: seq<string>)
    requires |fs| > 0 && |gs| > 0
    ensures JoinFields(fs + gs) == JoinFields(fs) + "|" + JoinFields(gs)
    decreases |fs|
  {
    if |fs| == 1 {
      assert (fs + gs)[1..] == gs;
    } else {
      assert (fs + gs)[1..] == fs[1..] + gs;
      JoinFieldsAppend(fs[1..], gs);
    }
  }

  /** Without that condition the key is ambiguous: a '|' inside the
      department can equally be read as part of the product code, so two
      different department and product pairs share one key and one hash. */
  lemma HashKeyAmbiguous(rt: Runtime, report: Report, x: string, y: string, z: string,
                         t: TxType, amount: real)
    ensures HashKey(rt, report, x + "|" + y, z, t, amount) == HashKey(rt, report, x, y + "|" + z, t, amount)
    ensures rt.sha(HashKey(rt, report, x + "|" + y, z, t, amount)) == rt.sha(HashKey(rt, report, x, y + "|" + z, t, amount))
  {
    var head := [report.id, DateText(report.dateFrom), DateText(report.dateTo)];
    var tail := [t.Code(), rt.floatText(amount)];
    var mid1 := [x + "|" + y, z];
    var mid2 := [x, y + "|" + z];
    assert KeyFields(rt, report, x + "|" + y, z, t, amount) == head + (mid1 + tail);
    assert KeyFields(rt, report, x, y + "|" + z, t, amount) == head + (mid2 + tail);
    JoinFieldsAppend(mid1, tail);
    JoinFieldsAppend(mid2, tail);
    JoinFieldsAppend(head, mid1 + tail);
    JoinFieldsAppend(head, mid2 + tail);
    assert JoinFields(mid1) == (x + "|" + y) + "|" + z;
    assert JoinFields(mid2) == x + "|" + (y + "|" + z);
    assert JoinFields(mid1) == JoinFields(mid2);
  }

  // ---------------------------------------------------------------------
  // Rows and postings

  /** One spreadsheet row, by normalised column name. */
  type Row = map<string, Cell>

  /** The row has every column the expansion reads. */
  predicate HasColumns(row: Row) {
    DepartmentColumn in row && ProductColumn in row && forall t: TxType :: t.Column() in row
  }

  /** One row of `raw.olap_postings`. */
  datatype Posting = Posting(
    reportId: string,
    dateFrom: Date,
    dateTo: Date,
    department: string,
    productNum: string,
    txType: TxType,
    amount: real,
    sourceHash: string)

  /** The department of a row: `str(cell).strip()`, or "" when the cell is
      missing. It never has surrounding whitespace. */
  function DepartmentOf(rt: Runtime, c: Cell): (r: string)
    ensures Trimmed(r)
    ensures c.Missing? ==> r == ""
    ensures c.Str? ==> (r == "" <==> IsBlank(c.s))
  {
    if c.Missing? then "" else Trim(CellText(rt, c))
  }

  /** Trailing whitespace in a department cell makes no difference. */
  lemma DepartmentIgnoresTrailingBlank(rt: Runtime, s: string, w: string)
    requires IsBlank(w)
    ensures DepartmentOf(rt, Str(s + w)) == DepartmentOf(rt, Str(s))
  {
    TrimAppendBlank(s, w);
  }

  /** The amount a row holds for one transaction kind. */
  function AmountOf(row: Row, t: TxType): real
    requires HasColumns(row)
  {
    ToNum(row[t.Column()])
  }

  /** The posting for one kind and amount; its hash is SHA-256 of the key. */
  function MakePosting(rt: Runtime, report: Report, department: string, productNum: string,
                       t: TxType, amount: real): Posting
  {
    Posting(report.id, report.dateFrom, report.dateTo, department, productNum, t, amount,
            rt.sha(HashKey(rt, report, department, productNum, t, amount)))
  }

  /** What every inserted posting satisfies: it belongs to the report and its
      fixed period, its department and product code are non-empty and free of
      surrounding whitespace, its amount is non-zero, and its hash is SHA-256
      of its own key fields. */
  predicate Valid(rt: Runtime, report: Report, p: Posting) {
    && p.reportId == report.id
    && p.dateFrom == report.dateFrom && p.dateTo == report.dateTo
    && p.department != "" && Trimmed(p.department)
    && p.productNum != "" && Trimmed(p.productNum)
    && p.amount != 0.0
    && p.sourceHash == rt.sha(HashKey(rt, report, p.department, p.productNum, p.txType, p.amount))
  }

  /** Two valid postings of one report that agree on department, product
      code, kind and amount agree on the hash too: they are the same
      posting. */
  lemma SameFieldsSameHash(rt: Runtime, report: Report, p: Posting, q: Posting)
    requires Valid(rt, report, p) && Valid(rt, report, q)
    requires p.department == q.department && p.productNum == q.productNum
    requires p.txType == q.txType && p.amount == q.amount
    ensures p.sourceHash == q.sourceHash
    ensures p == q
  {
  }

  /** Some posting in `ps` is of kind `t`. */
  predicate HasKind(ps: seq<Posting>, t: TxType) {
    exists i :: 0 <= i < |ps| && ps[i].txType == t
  }

  lemma HasKindAppend(a: seq<Posting>, b: seq<Posting>, t: TxType)
    ensures HasKind(a + b, t) <==> HasKind(a, t) || HasKind(b, t)
  {
    if HasKind(a + b, t) {
      var i :| 0 <= i < |a + b| && (a + b)[i].txType == t;
      if i >= |a| {
        assert b[i - |a|].txType == t;
      }
    }
    if HasKind(b, t) {
      var i :| 0 <= i < |b| && b[i].txType == t;
      assert (a + b)[|a| + i] == b[i];
    }
    if HasKind(a, t) {
      var i :| 0 <= i < |a| && a[i].txType == t;
      assert (a + b)[i] == a[i];
    }
  }

  /** The row's amounts, one per transaction kind, in column order. */
  function RowAmounts(row: Row): (amounts: seq<real>)
    requires HasColumns(row)
    ensures |amounts| == |TxOrder|
    ensures forall t: TxType :: amounts[t.Index()] == AmountOf(row, t)
  {
    seq(|TxOrder|, i requires 0 <= i < |TxOrder| => AmountOf(row, TxOrder[i]))
  }

  /** The postings the first `k` transaction columns yield, in column order. */
  function ColumnPostings(rt: Runtime, report: Report, department: string, productNum: string,
                          amounts: seq<real>, k: nat): (ps: seq<Posting>)
    requires k <= |amounts| == |TxOrder|
  {
    if k == 0 then []
    else
      ColumnPostings(rt, report, department, productNum, amounts, k - 1)
        + if amounts[k - 1] == 0.0 then []
          else [MakePosting(rt, report, department, productNum, TxOrder[k - 1], amounts[k - 1])]
  }

  /** Strictly increasing column positions: at most one posting per kind, in
      the order the columns are visited. */
  predicate InColumnOrder(ps: seq<Posting>) {
    forall i, j :: 0 <= i < j < |ps| ==> ps[i].txType.Index() < ps[j].txType.Index()
  }

  /** Each posting is the one `MakePosting` builds for its kind's non-zero
      amount. */
  predicate BuiltFrom(rt: Runtime, report: Report, department: string, productNum: string,
                      amounts: seq<real>, ps: seq<Posting>)
    requires |amounts| == |TxOrder|
  {
    forall i :: 0 <= i < |ps| ==>
      && amounts[ps[i].txType.Index()] != 0.0
      && ps[i] == MakePosting(rt, report, department, productNum, ps[i].txType, amounts[ps[i].txType.Index()])
  }

  /** The first `k` columns yield at most `k` postings, each from one of
      those columns and built from its amount. */
  lemma {:induction false} ColumnPostingsBuilt(rt: Runtime, report: Report, department: string,
                                               productNum: string, amounts: seq<real>, k: nat)
    requires k <= |amounts| == |TxOrder|
    ensures var ps := ColumnPostings(rt, report, department, productNum, amounts, k);
      && |ps| <= k
      && (forall i :: 0 <= i < |ps| ==> ps[i].txType.Index() < k)
      && BuiltFrom(rt, report, department, productNum, amounts, ps)
  {
    if k > 0 {
      var earlier := ColumnPostings(rt, report, department, productNum, amounts, k - 1);
      ColumnPostingsBuilt(rt, report, department, productNum, amounts, k - 1);
      var t := TxOrder[k - 1];
      assert t.Index() == k - 1;
      var added := if amounts[k - 1] == 0.0 then [] else [MakePosting(rt, report, department, productNum, t, amounts[k - 1])];
      var ps := earlier + added;
      assert ps == ColumnPostings(rt, report, department, productNum, amounts, k);
      forall i | 0 <= i < |ps|
        ensures ps[i].txType.Index() < k
        ensures amounts[ps[i].txType.Index()] != 0.0
        ensures ps[i] == MakePosting(rt, report, department, productNum, ps[i].txType, amounts[ps[i].txType.Index()])
      {
        if i < |earlier| {
          assert ps[i] == earlier[i];
        } else {
          assert ps[i] == added[0] && ps[i].txType == t;
        }
      }
      assert BuiltFrom(rt, report, department, productNum, amounts, ps);
    }
  }

  /** They come in column order. */
  lemma {:induction false} ColumnPostingsOrdered(rt: Runtime, report: Report, department: string,
                                                 productNum: string, amounts: seq<real>, k: nat)
    requires k <= |amounts| == |TxOrder|
    ensures InColumnOrder(ColumnPostings(rt, report, department, productNum, amounts, k))
  {
    if k > 0 {
      ColumnPostingsBuilt(rt, report, department, productNum, amounts, k - 1);
      ColumnPostingsOrdered(rt, report, department, productNum, amounts, k - 1);
      assert TxOrder[k - 1].Index() == k - 1;
    }
  }

  /** A kind among the first `k` columns has a posting exactly when its
      amount is non-zero. */
  lemma {:induction false} ColumnPostingsKinds(rt: Runtime, report: Report, department: string,
                                               productNum: string, amounts: seq<real>, k: nat)
    requires k <= |amounts| == |TxOrder|
    ensures forall t: TxType :: t.Index() < k ==>
      (HasKind(ColumnPostings(rt, report, department, productNum, amounts, k), t) <==> amounts[t.Index()] != 0.0)
  {
    if k > 0 {
      var earlier := ColumnPostings(rt, report, department, productNum, amounts, k - 1);
      ColumnPostingsBuilt(rt, report, department, productNum, amounts, k - 1);
      ColumnPostingsKinds(rt, report, department, productNum, amounts, k - 1);
      var t := TxOrder[k - 1];
      var added := if amounts[k - 1] == 0.0 then [] else [MakePosting(rt, report, department, productNum, t, amounts[k - 1])];
      var ps := earlier + added;
      assert ps == ColumnPostings(rt, report, department, productNum, amounts, k);
      assert t.Index() == k - 1;
      forall u: TxType | u.Index() < k
        ensures HasKind(ps, u) <==> amounts[u.Index()] != 0.0
      {
        HasKindAppend(earlier, added, u);
        if u.Index() == k - 1 {
          assert u == t;
          assert !HasKind(earlier, u);
          assert HasKind(added, u) <==> amounts[k - 1] != 0.0 by {
            if amounts[k - 1] != 0.0 {
              assert added[0].txType == u;
            }
          }
        } else {
          assert !HasKind(added, u);
        }
      }
    }
  }

  /** The postings one spreadsheet row yields: nothing without a department
      or a product code, otherwise one for each non-zero transaction
      column. */
  function RowPostings(rt: Runtime, report: Report, row: Row): seq<Posting>
    requires HasColumns(row)
  {
    var department := DepartmentOf(rt, row[DepartmentColumn]);
    var productNum := ToSkuStr(rt, row[ProductColumn]);
    if department == "" || productNum == "" then []
    else ColumnPostings(rt, report, department, productNum, RowAmounts(row), |TxOrder|)
  }

  /** A row yields at most five postings, in column order, each valid and
      carrying the row's department, product code and the amount of its
      kind's column. */
  lemma RowPostingsValid(rt: Runtime, report: Report, row: Row)
    requires HasColumns(row)
    ensures var ps := RowPostings(rt, report, row);
      && |ps| <= |TxOrder|
      && InColumnOrder(ps)
      && (forall i :: 0 <= i < |ps| ==> Valid(rt, report, ps[i]))
      && (forall i :: 0 <= i < |ps| ==>
            && ps[i].department == DepartmentOf(rt, row[DepartmentColumn])
            && ps[i].productNum == ToSkuStr(rt, row[ProductColumn])
            && ps[i].amount == AmountOf(row, ps[i].txType))
  {
    var department := DepartmentOf(rt, row[DepartmentColumn]);
    var productNum := ToSkuStr(rt, row[ProductColumn]);
    var ps := RowPostings(rt, report, row);
    if department != "" && productNum != "" {
      var amounts := RowAmounts(row);
      assert ps == ColumnPostings(rt, report, department, productNum, amounts, |TxOrder|);
      ColumnPostingsBuilt(rt, report, department, productNum, amounts, |TxOrder|);
      ColumnPostingsOrdered(rt, report, department, productNum, amounts, |TxOrder|);
      forall i | 0 <= i < |ps|
        ensures Valid(rt, report, ps[i])
        ensures ps[i].department == department && ps[i].productNum == productNum
        ensures ps[i].amount == AmountOf(row, ps[i].txType)
      {
        var t := ps[i].txType;
        assert ps[i] == MakePosting(rt, report, department, productNum, t, amounts[t.Index()]);
        assert amounts[t.Index()] == AmountOf(row, t);
      }
    } else {
      assert ps == [];
    }
  }

  /** A row yields a posting of a given kind exactly when it has a
      department, a product code and a non-zero amount in that kind's
      column. */
  lemma RowPostingsKinds(rt: Runtime, report: Report, row: Row, t: TxType)
    requires HasColumns(row)
    ensures HasKind(RowPostings(rt, report, row), t) <==>
      && DepartmentOf(rt, row[DepartmentColumn]) != ""
      && ToSkuStr(rt, row[ProductColumn]) != ""
      && AmountOf(row, t) != 0.0
  {
    var department := DepartmentOf(rt, row[DepartmentColumn]);
    var productNum := ToSkuStr(rt, row[ProductColumn]);
    if department != "" && productNum != "" {
      ColumnPostingsKinds(rt, report, department, productNum, RowAmounts(row), |TxOrder|);
    }
  }

  /** The lists one after the other. */
  function Flatten(pss: seq<seq<Posting>>): seq<Posting> {
    if |pss| == 0 then [] else Flatten(pss[..|pss| - 1]) + pss[|pss| - 1]
  }

  /** Flattening two batches one after the other is flattening them
      together. */
  lemma {:induction false} FlattenAppend(a: seq<seq<Posting>>, b: seq<seq<Posting>>)
    ensures Flatten(a + b) == Flatten(a) + Flatten(b)
    decreases |b|
  {
    if |b| == 0 {
      assert a + b == a;
    } else {
      var b' := b[..|b| - 1];
      assert (a + b)[..|a + b| - 1] == a + b';
      assert (a + b)[|a + b| - 1] == b[|b| - 1];
      FlattenAppend(a, b');
      var x, y, z := Flatten(a), Flatten(b'), b[|b| - 1];
      assert Flatten(a + b) == (x + y) + z;
      assert (x + y) + z == x + (y + z);
    }
  }

  /** A posting is in the flattened list exactly when it is in one of the
      lists. */
  lemma {:induction false} FlattenMembers(pss: seq<seq<Posting>>, p: Posting)
    ensures p in Flatten(pss) <==> exists i :: 0 <= i < |pss| && p in pss[i]
    decreases |pss|
  {
    if |pss| > 0 {
      var init := pss[..|pss| - 1];
      FlattenMembers(init, p);
      if p in pss[|pss| - 1] {
        assert 0 <= |pss| - 1 < |pss|;
      }
      if exists i :: 0 <= i < |pss| && p in pss[i] {
        var i :| 0 <= i < |pss| && p in pss[i];
        if i < |pss| - 1 {
          assert pss[i] == init[i];
        }
      }
    }
  }

  /** Lists of at most `n` entries flatten to at most `n` entries each. */
  lemma {:induction false} FlattenBound(pss: seq<seq<Posting>>, n: nat)
    requires forall i :: 0 <= i < |pss| ==> |pss[i]| <= n
    ensures |Flatten(pss)| <= n * |pss|
    decreases |pss|
  {
    if |pss| > 0 {
      FlattenBound(pss[..|pss| - 1], n);
    }
  }

  /** Each row's postings, in row order. */
  function RowLists(rt: Runtime, report: Report, rows: seq<Row>): (pss: seq<seq<Posting>>)
    requires forall i :: 0 <= i < |rows| ==> HasColumns(rows[i])
    ensures |pss| == |rows|
    ensures forall i :: 0 <= i < |rows| ==> pss[i] == RowPostings(rt, report, rows[i])
  {
    seq(|rows|, i requires 0 <= i < |rows| => RowPostings(rt, report, rows[i]))
  }

  /** The loop over all rows: each row's postings, in row order. */
  function ExpandRows(rt: Runtime, report: Report, rows: seq<Row>): seq<Posting>
    requires forall i :: 0 <= i < |rows| ==> HasColumns(rows[i])
  {
    Flatten(RowLists(rt, report, rows))
  }

  /** Expanding two batches of rows one after the other is expanding them
      together. */
  lemma ExpandRowsAppend(rt: Runtime, report: Report, a: seq<Row>, b: seq<Row>)
    requires forall i :: 0 <= i < |a| ==> HasColumns(a[i])
    requires forall i :: 0 <= i < |b| ==> HasColumns(b[i])
    ensures forall i :: 0 <= i < |a + b| ==> HasColumns((a + b)[i])
    ensures ExpandRows(rt, report, a + b) == ExpandRows(rt, report, a) + ExpandRows(rt, report, b)
  {
    var la, lb := RowLists(rt, report, a), RowLists(rt, report, b);
    var lab := RowLists(rt, report, a + b);
    forall i | 0 <= i < |a + b| ensures lab[i] == (la + lb)[i] {
      if i < |a| {
        assert (a + b)[i] == a[i];
      } else {
        assert (a + b)[i] == b[i - |a|];
      }
    }
    assert lab == la + lb;
    FlattenAppend(la, lb);
  }

  /** A posting is inserted exactly when some row of the sheet yields it. */
  lemma ExpandRowsMembers(rt: Runtime, report: Report, rows: seq<Row>, p: Posting)
    requires forall i :: 0 <= i < |rows| ==> HasColumns(rows[i])
    ensures p in ExpandRows(rt, report, rows) <==>
      exists i :: 0 <= i < |rows| && p in RowPostings(rt, report, rows[i])
  {
    FlattenMembers(RowLists(rt, report, rows), p);
  }

  /** All rows together yield at most five postings each, and every one is
      valid. */
  lemma ExpandRowsValid(rt: Runtime, report: Report, rows: seq<Row>)
    requires forall i :: 0 <= i < |rows| ==> HasColumns(rows[i])
    ensures |ExpandRows(rt, report, rows)| <= |TxOrder| * |rows|
    ensures forall p :: p in ExpandRows(rt, report, rows) ==> Valid(rt, report, p)
  {
    var pss := RowLists(rt, report, rows);
    forall i | 0 <= i < |rows|
      ensures |pss[i]| <= |TxOrder|
      ensures forall p :: p in pss[i] ==> Valid(rt, report, p)
    {
      RowPostingsValid(rt, report, rows[i]);
    }
    FlattenBound(pss, |TxOrder|);
    forall p | p in ExpandRows(rt, report, rows) ensures Valid(rt, report, p) {
      FlattenMembers(pss, p);
    }
  }

  /** The inner loop, as written: go through the transaction columns in
      order, appending a posting for every non-zero amount. */
  method CollectColumns(rt: Runtime, report: Report, department: string, productNum: string, row: Row)
    returns (ps: seq<Posting>)
    requires HasColumns(row)
    ensures ps == ColumnPostings(rt, report, department, productNum, RowAmounts(row), |TxOrder|)
  {
    ps := [];
    var k := 0;
    while k < |TxOrder|
      invariant 0 <= k <= |TxOrder|
      invariant ps == ColumnPostings(rt, report, department, productNum, RowAmounts(row), k)
    {
      var t := TxOrder[k];
      var amount := ToNum(row[t.Column()]);
      assert amount == RowAmounts(row)[k];
      if amount != 0.0 {
        ps := ps + [MakePosting(rt, report, department, productNum, t, amount)];
      }
      k := k + 1;
    }
  }

  /** One pass of the loop over rows, as written: read the department and
      the product code, and only when both are there, the transaction
      columns. */
  method CollectRow(rt: Runtime, report: Report, row: Row) returns (ps: seq<Posting>)
    requires HasColumns(row)
    ensures ps == RowPostings(rt, report, row)
  {
    var department := DepartmentOf(rt, row[DepartmentColumn]);
    var productNum := ToSkuStr(rt, row[ProductColumn]);
    if department != "" && productNum != "" {
      ps := CollectColumns(rt, report, department, productNum, row);
    } else {
      ps := [];
    }
  }

  /** The loop of `main` as written, row after row. It collects exactly
      `ExpandRows`. */
  method CollectPostings(rt: Runtime, report: Report, rows: seq<Row>) returns (out: seq<Posting>)
    requires forall i :: 0 <= i < |rows| ==> HasColumns(rows[i])
    ensures out == ExpandRows(rt, report, rows)
  {
    out := [];
    var i := 0;
    while i < |rows|
      invariant 0 <= i <= |rows|
      invariant out == Flatten(RowLists(rt, report, rows[..i]))
    {
      var ps := CollectRow(rt, report, rows[i]);
      RowListsStep(rt, report, rows, i);
      out := out + ps;
      i := i + 1;
    }
    assert rows[..|rows|] == rows;
  }

  lemma RowListsStep(rt: Runtime, report: Report, rows: seq<Row>, i: nat)
    requires forall j :: 0 <= j < |rows| ==> HasColumns(rows[j])
    requires i < |rows|
    ensures Flatten(RowLists(rt, report, rows[..i + 1])) ==
      Flatten(RowLists(rt, report, rows[..i])) + RowPostings(rt, report, rows[i])
  {
    var pss := RowLists(rt, report, rows[..i + 1]);
    assert pss[..i] == RowLists(rt, report, rows[..i]);
  }

  // ---------------------------------------------------------------------
  // The sheet

  /** The spreadsheet as read: the header row and the data rows, cell by
      cell. */
  datatype Sheet = Sheet(header: seq<string>, rows: seq<seq<Cell>>)

  /** Every data row has one cell per header. */
  predicate Rectangular(sheet: Sheet) {
    forall i :: 0 <= i < |sheet.rows| ==> |sheet.rows[i]| == |sheet.header|
  }

  /** Why the sheet could not be loaded. */
  datatype SheetError =
    | MissingColumns(missing: seq<string>)
    | DuplicateColumns(duplicated: seq<string>)

  /** `[norm(c) for c in df.columns]`: every name is in normal form, has the
      words of its header, and is empty exactly for a blank header. */
  function NormalizeHeader(header: seq<string>): (names: seq<string>)
    ensures |names| == |header|
    ensures forall i :: 0 <= i < |header| ==> names[i] == Norm(header[i])
    ensures forall i :: 0 <= i < |header| ==>
      Normalized(names[i]) && Words(names[i]) == Words(header[i]) && (names[i] == "" <==> IsBlank(header[i]))
  {
    seq(|header|, i requires 0 <= i < |header| => Norm(header[i]))
  }

  /** The entries of `need` that are not among `names`, in order. */
  function Absent(need: seq<string>, names: seq<string>): (missing: seq<string>)
    ensures forall c :: c in missing <==> c in need && c !in names
  {
    if |need| == 0 then []
    else (if need[0] in names then [] else [need[0]]) + Absent(need[1..], names)
  }

  /** How many times `c` occurs in `names`. */
  function Count(names: seq<string>, c: string): nat {
    if |names| == 0 then 0 else (if names[0] == c then 1 else 0) + Count(names[1..], c)
  }

  /** The entries of `need` that occur more than once among `names`. */
  function Repeated(need: seq<string>, names: seq<string>): (dup: seq<string>)
    ensures forall c :: c in dup <==> c in need && Count(names, c) > 1
  {
    if |need| == 0 then []
    else (if Count(names, need[0]) > 1 then [need[0]] else []) + Repeated(need[1..], names)
  }

  /** A data row keyed by column name; where a name repeats, the first
      column of that name is taken. */
  function RowOf(names: seq<string>, cells: seq<Cell>): (row: Row)
    requires |cells| == |names|
    ensures forall c :: c in row <==> c in names
  {
    if |names| == 0 then map[]
    else RowOf(names[1..], cells[1..])[names[0] := cells[0]]
  }

  /** A name that occurs once gets the cell in its own position. */
  lemma {:induction false} RowOfUnique(names: seq<string>, cells: seq<Cell>, i: nat)
    requires |cells| == |names| && i < |names|
    requires Count(names, names[i]) == 1
    ensures RowOf(names, cells)[names[i]] == cells[i]
  {
    if i > 0 {
      if names[0] == names[i] {
        CountPositive(names[1..], i - 1);
        assert false;
      }
      assert names[1..][i - 1] == names[i];
      RowOfUnique(names[1..], cells[1..], i - 1);
    }
  }

  lemma {:induction false} CountPositive(names: seq<string>, i: nat)
    requires i < |names|
    ensures Count(names, names[i]) >= 1
  {
    if i > 0 {
      assert names[1..][i - 1] == names[i];
      CountPositive(names[1..], i - 1);
    }
  }

  /** With no required column absent, every required column is among the
      names. */
  lemma NothingMissing(names: seq<string>)
    requires Absent(RequiredColumns, names) == []
    ensures DepartmentColumn in names && ProductColumn in names
    ensures forall t: TxType :: t.Column() in names
  {
    assert DepartmentColumn in RequiredColumns && ProductColumn in RequiredColumns;
    forall t: TxType ensures t.Column() in names {
      ColumnRequired(t);
    }
  }

  /** The data rows keyed by the normalised header; each has every required
      column when none is absent. */
  function SheetRows(names: seq<string>, sheet: Sheet): (rows: seq<Row>)
    requires Rectangular(sheet) && |names| == |sheet.header|
    requires Absent(RequiredColumns, names) == []
    ensures |rows| == |sheet.rows|
    ensures forall i :: 0 <= i < |rows| ==> HasColumns(rows[i])
  {
    NothingMissing(names);
    seq(|sheet.rows|, i requires 0 <= i < |sheet.rows| => RowOf(names, sheet.rows[i]))
  }

  /** What `main` does with a sheet before the database: normalise the
      header, fail listing the missing columns if any required column is
      absent, and otherwise expand the rows. A required column whose name
      occurs twice makes pandas hand back several cells where one is
      expected, and the run fails at the first row that reads it: the
      department and product columns are read for every row, the
      transaction columns only for rows that are kept. */
  function Prepare(rt: Runtime, reportId: string, sheet: Sheet): (r: Result<seq<Posting>, SheetError>)
    requires Rectangular(sheet)
    ensures r.Failure? && r.error.MissingColumns? <==>
      exists c :: c in RequiredColumns && c !in NormalizeHeader(sheet.header)
    ensures r.Failure? && r.error.MissingColumns? ==>
      forall c :: c in r.error.missing <==> c in RequiredColumns && c !in NormalizeHeader(sheet.header)
    ensures r.Failure? && r.error.DuplicateColumns? <==>
      Absent(RequiredColumns, NormalizeHeader(sheet.header)) == [] &&
      ReadsRepeated(rt, NormalizeHeader(sheet.header), sheet)
    ensures r.Failure? && r.error.DuplicateColumns? ==>
      && |sheet.rows| > 0
      && r.error.duplicated != []
      && forall c :: c in r.error.duplicated <==> c in RequiredColumns && Count(NormalizeHeader(sheet.header), c) > 1
    ensures r.Success? ==>
      && Absent(RequiredColumns, NormalizeHeader(sheet.header)) == []
      && r.value == ExpandRows(rt, TheReport(reportId), SheetRows(NormalizeHeader(sheet.header), sheet))
    ensures r.Success? ==> forall p :: p in r.value ==> Valid(rt, TheReport(reportId), p)
    ensures r.Success? ==> |r.value| <= |TxOrder| * |sheet.rows|
  {
    var names := NormalizeHeader(sheet.header);
    var missing := Absent(RequiredColumns, names);
    if missing != [] then
      assert missing[0] in missing;
      Failure(MissingColumns(missing))
    else
      var dup := Repeated(RequiredColumns, names);
      var rows := SheetRows(names, sheet);
      ExpandRowsValid(rt, TheReport(reportId), rows);
      if ReadsRepeated(rt, names, sheet) then Failure(DuplicateColumns(dup))
      else Success(ExpandRows(rt, TheReport(reportId), rows))
  }

  /** A repeated department or product column fails the run as soon as
      there is a data row, whatever the row holds. */
  lemma PrepareRepeatedKeyColumn(rt: Runtime, reportId: string, sheet: Sheet)
    requires Rectangular(sheet) && |sheet.rows| > 0
    requires Absent(RequiredColumns, NormalizeHeader(sheet.header)) == []
    requires var dup := Repeated(RequiredColumns, NormalizeHeader(sheet.header));
      DepartmentColumn in dup || ProductColumn in dup
    ensures Prepare(rt, reportId, sheet).Failure?
    ensures Prepare(rt, reportId, sheet).error.DuplicateColumns?
  {
  }

  /** A repeated transaction column fails the run exactly when some row
      gets as far as reading it. */
  lemma PrepareRepeatedTxColumn(rt: Runtime, reportId: string, sheet: Sheet, i: nat)
    requires Rectangular(sheet) && i < |sheet.rows|
    requires Absent(RequiredColumns, NormalizeHeader(sheet.header)) == []
    requires Repeated(RequiredColumns, NormalizeHeader(sheet.header)) != []
    requires Kept(rt, SheetRows(NormalizeHeader(sheet.header), sheet)[i])
    ensures Prepare(rt, reportId, sheet).Failure?
    ensures Prepare(rt, reportId, sheet).error.DuplicateColumns?
  {
  }

  /** With every required column present exactly once, the sheet always
      loads. */
  lemma PrepareNoRepeats(rt: Runtime, reportId: string, sheet: Sheet)
    requires Rectangular(sheet)
    requires Absent(RequiredColumns, NormalizeHeader(sheet.header)) == []
    requires Repeated(RequiredColumns, NormalizeHeader(sheet.header)) == []
    ensures Prepare(rt, reportId, sheet).Success?
  {
  }

  /** Some row reads a required column whose name occurs more than once:
      every row reads the department and product columns, and a row that
      is kept reads the transaction columns too. */
  predicate ReadsRepeated(rt: Runtime, names: seq<string>, sheet: Sheet)
    requires Rectangular(sheet) && |names| == |sheet.header|
    requires Absent(RequiredColumns, names) == []
  {
    var dup := Repeated(RequiredColumns, names);
    var rows := SheetRows(names, sheet);
    && dup != []
    && |rows| > 0
    && (|| DepartmentColumn in dup
        || ProductColumn in dup
        || exists i :: 0 <= i < |rows| && Kept(rt, rows[i]))
  }

  /** The row has a department and a product code, so the loop goes on to
      read its transaction columns. */
  predicate Kept(rt: Runtime, row: Row)
    requires HasColumns(row)
  {
    DepartmentOf(rt, row[DepartmentColumn]) != "" && ToSkuStr(rt, row[ProductColumn]) != ""
  }
}

=== FILE: results.dfy ===
/** Optional values and error-carrying results used across the model. */
module Results {

  /** A value that may be absent, as a failed parse. */
  datatype Option<+T> = None | Some(value: T)

  /** Either a value or the reason it could not be produced. */
  datatype Result<+R, +E> = Success(value: R) | Failure(error: E)
}

=== FILE: strings.dfy ===
/** Python's whitespace-driven string operations: `str.isspace`, `str.split()`
    with no argument, `" ".join`, `str.strip()` with no argument, and the
    single-character `str.replace` calls the ETL uses. */
module Strings {

  /** The characters for which Python's `str.isspace()` holds; `split()` and
      `strip()` without arguments cut on exactly these. */
  predicate IsSpace(c: char) {
    || c == ' '
    || ('\t' <= c <= '\r')
    || ('\U{1c}' <= c <= '\U{1f}')
    || c == '\U{85}'
    || c == '\U{a0}'
    || c == '\U{1680}'
    || ('\U{2000}' <= c <= '\U{200a}')
    || c == '\U{2028}'
    || c == '\U{2029}'
    || c == '\U{202f}'
    || c == '\U{205f}'
    || c == '\U{3000}'
  }

  predicate NoSpace(s: string) {
    forall i :: 0 <= i < |s| ==> !IsSpace(s[i])
  }

  predicate IsBlank(s: string) {
    forall i :: 0 <= i < |s| ==> IsSpace(s[i])
  }

  /** Neither end is whitespace: what `strip()` leaves behind. */
  predicate Trimmed(s: string) {
    |s| == 0 || (!IsSpace(s[0]) && !IsSpace(s[|s| - 1]))
  }

  /** `s.lstrip()`: drops the leading whitespace and nothing else. */
  function TrimLeft(s: string): (r: string)
    ensures |r| <= |s| && r == s[|s| - |r|..]
    ensures |r| > 0 ==> !IsSpace(r[0])
    ensures forall i :: 0 <= i < |s| - |r| ==> IsSpace(s[i])
  {
    if |s| > 0 && IsSpace(s[0]) then TrimLeft(s[1..]) else s
  }

  /** `s.rstrip()`: drops the trailing whitespace and nothing else. */
  function TrimRight(s: string): (r: string)
    ensures |r| <= |s| && r == s[..|r|]
    ensures |r| > 0 ==> !IsSpace(r[|r| - 1])
    ensures forall i :: |r| <= i < |s| ==> IsSpace(s[i])
  {
    if |s| > 0 && IsSpace(s[|s| - 1]) then TrimRight(s[..|s| - 1]) else s
  }

  /** `s.strip()`: the result is trimmed, and it is empty exactly when the
      input was all whitespace. */
  function Trim(s: string): (r: string)
    ensures Trimmed(r)
    ensures |r| <= |s|
    ensures r == "" <==> IsBlank(s)
  {
    var l := TrimLeft(s);
    TrimRight(l)
  }

  /** A string that is already trimmed is left alone by `strip()`. */
  lemma TrimOfTrimmed(s: string)
    requires Trimmed(s)
    ensures Trim(s) == s
  {
  }

  /** Leading whitespace never survives `lstrip()`. */
  lemma {:induction false} TrimLeftPrependBlank(w: string, s: string)
    requires IsBlank(w)
    ensures TrimLeft(w + s) == TrimLeft(s)
    decreases |w|
  {
    if |w| > 0 {
      assert (w + s)[0] == w[0];
      assert (w + s)[1..] == w[1..] + s;
      TrimLeftPrependBlank(w[1..], s);
    } else {
      assert w + s == s;
    }
  }

  /** Nor does it survive `strip()`. */
  lemma TrimPrependBlank(w: string, s: string)
    requires IsBlank(w)
    ensures Trim(w + s) == Trim(s)
  {
    TrimLeftPrependBlank(w, s);
  }

  /** `strip()` gives back exactly the text between the whitespace at the
      two ends: a trimmed text wrapped in whitespace comes out unchanged. */
  lemma TrimAround(w1: string, t: string, w2: string)
    requires IsBlank(w1) && IsBlank(w2) && Trimmed(t)
    ensures Trim(w1 + t + w2) == t
  {
    TrimAppendBlank(w1 + t, w2);
    TrimPrependBlank(w1, t);
    TrimOfTrimmed(t);
  }

  /** `r` sits in `s` at position `k`, with only whitespace before and after
      it. */
  predicate BetweenBlanks(s: string, k: nat, r: string) {
    && k + |r| <= |s|
    && s[k..k + |r|] == r
    && IsBlank(s[..k])
    && IsBlank(s[k + |r|..])
  }

  /** Conversely, every string is its `strip()` wrapped in whitespace: the
      result is the slice of the input between a blank prefix and a blank
      suffix. */
  lemma TrimSlice(s: string)
    ensures exists k :: BetweenBlanks(s, k, Trim(s))
  {
    var l := TrimLeft(s);
    var r := TrimRight(l);
    assert Trim(s) == r;
    BlankAround(s, l, r);
  }

  /** Dropping a blank prefix and then a blank suffix leaves a slice between
      blanks. */
  lemma BlankAround(s: string, l: string, r: string)
    requires |l| <= |s| && l == s[|s| - |l|..]
    requires forall i :: 0 <= i < |s| - |l| ==> IsSpace(s[i])
    requires |r| <= |l| && r == l[..|r|]
    requires forall i :: |r| <= i < |l| ==> IsSpace(l[i])
    ensures BetweenBlanks(s, |s| - |l|, r)
  {
    var k := |s| - |l|;
    assert s[k..k + |r|] == l[..|r|];
    var head := s[..k];
    forall i | 0 <= i < |head| ensures IsSpace(head[i]) {
      assert head[i] == s[i];
    }
    var tail := s[k + |r|..];
    forall i | 0 <= i < |tail| ensures IsSpace(tail[i]) {
      assert tail[i] == l[|r| + i];
    }
  }


  /** Trailing whitespace never survives `strip()`. */
  lemma {:induction false} TrimRightAppendBlank(s: string, w: string)
    requires IsBlank(w)
    ensures TrimRight(s + w) == TrimRight(s)
    decreases |w|
  {
    if |w| > 0 {
      var w' := w[..|w| - 1];
      assert (s + w)[..|s + w| - 1] == s + w';
      TrimRightAppendBlank(s, w');
    } else {
      assert s + w == s;
    }
  }

  lemma {:induction false} TrimLeftAppend(s: string, w: string)
    requires !IsBlank(s)
    ensures TrimLeft(s + w) == TrimLeft(s) + w
    decreases |s|
  {
    assert |s| > 0;
    if IsSpace(s[0]) {
      assert (s + w)[1..] == s[1..] + w;
      assert !IsBlank(s[1..]) by {
        var i :| 0 <= i < |s| && !IsSpace(s[i]);
        assert s[1..][i - 1] == s[i];
      }
      TrimLeftAppend(s[1..], w);
    }
  }

  /** Two cells that differ only in trailing whitespace strip to the same text. */
  lemma TrimAppendBlank(s: string, w: string)
    requires IsBlank(w)
    ensures Trim(s + w) == Trim(s)
  {
    if IsBlank(s) {
      assert IsBlank(s + w) by {
        forall i | 0 <= i < |s + w| ensures IsSpace((s + w)[i]) {
          if i >= |s| {
            assert (s + w)[i] == w[i - |s|];
          }
        }
      }
    } else {
      TrimLeftAppend(s, w);
      TrimRightAppendBlank(TrimLeft(s), w);
    }
  }

  /** Length of the leading run of non-whitespace characters. */
  function WordLen(s: string): (n: nat)
    ensures n <= |s|
    ensures forall i :: 0 <= i < n ==> !IsSpace(s[i])
    ensures n < |s| ==> IsSpace(s[n])
  {
    if |s| == 0 || IsSpace(s[0]) then 0 else 1 + WordLen(s[1..])
  }

  /** Each word is non-empty and holds no whitespace. */
  predicate WellFormedWords(ws: seq<string>) {
    forall k :: 0 <= k < |ws| ==> |ws[k]| > 0 && NoSpace(ws[k])
  }

  /** `s.split()`: the maximal runs of non-whitespace characters, in order. */
  function Words(s: string): (ws: seq<string>)
    ensures WellFormedWords(ws)
    decreases |s|
  {
    if |s| == 0 then []
    else if IsSpace(s[0]) then Words(s[1..])
    else
      var n := WordLen(s);
      [s[..n]] + Words(s[n..])
  }

  /** `" ".join(ws)`. */
  function JoinWords(ws: seq<string>): string {
    if |ws| == 0 then ""
    else if |ws| == 1 then ws[0]
    else ws[0] + " " + JoinWords(ws[1..])
  }

  /** The shape `" ".join(s.split())` produces: every whitespace character is
      a plain space with a non-whitespace character on either side. So there
      is no leading or trailing whitespace, no newline and no double space. */
  predicate Normalized(t: string) {
    forall i :: 0 <= i < |t| && IsSpace(t[i]) ==>
      t[i] == ' ' && 0 < i && i + 1 < |t| && !IsSpace(t[i + 1]) && !IsSpace(t[i - 1])
  }

  lemma {:induction false} JoinWordsNormalized(ws: seq<string>)
    requires WellFormedWords(ws)
    ensures Normalized(JoinWords(ws))
    ensures |ws| > 0 ==> |JoinWords(ws)| > 0 && JoinWords(ws)[0] == ws[0][0]
    ensures |ws| > 0 ==> JoinWords(ws)[|JoinWords(ws)| - 1] == ws[|ws| - 1][|ws[|ws| - 1]| - 1]
  {
    if |ws| >= 2 {
      var w := ws[0];
      var rest := JoinWords(ws[1..]);
      JoinWordsNormalized(ws[1..]);
      var t := w + " " + rest;
      assert JoinWords(ws) == t;
      forall i | 0 <= i < |t| && IsSpace(t[i])
        ensures t[i] == ' ' && 0 < i && i + 1 < |t| && !IsSpace(t[i + 1]) && !IsSpace(t[i - 1])
      {
        if i < |w| {
          assert false;
        } else if i == |w| {
          assert t[i + 1] == rest[0];
          assert t[i - 1] == w[|w| - 1];
        } else {
          var j := i - |w| - 1;
          assert t[i] == rest[j];
          assert j > 0;
          assert t[i - 1] == rest[j - 1];
          assert t[i + 1] == rest[j + 1];
        }
      }
      assert ws[1..][|ws[1..]| - 1] == ws[|ws| - 1];
    }
  }

  lemma {:induction false} WordLenOfWord(w: string, t: string)
    requires NoSpace(w)
    requires |t| == 0 || IsSpace(t[0])
    ensures WordLen(w + t) == |w|
    decreases |w|
  {
    if |w| > 0 {
      assert (w + t)[1..] == w[1..] + t;
      WordLenOfWord(w[1..], t);
    } else {
      assert w + t == t;
    }
  }

  /** Splitting a space-joined list of words gives the words back. */
  lemma {:induction false} WordsOfJoin(ws: seq<string>)
    requires WellFormedWords(ws)
    ensures Words(JoinWords(ws)) == ws
  {
    if |ws| == 1 {
      var w := ws[0];
      WordLenOfWord(w, "");
      assert w + "" == w;
      assert w[..|w|] == w;
    } else if |ws| >= 2 {
      var w := ws[0];
      var rest := JoinWords(ws[1..]);
      var s := w + " " + rest;
      assert s == w + (" " + rest);
      WordLenOfWord(w, " " + rest);
      assert s[..|w|] == w;
      assert s[|w|..] == " " + rest;
      assert (" " + rest)[1..] == rest;
      WordsOfJoin(ws[1..]);
      assert Words(" " + rest) == Words(rest);
      assert Words(s) == [w] + Words(" " + rest);
      assert [w] + ws[1..] == ws;
    }
  }

  /** Two strings of the same length that have whitespace in the same places
      and agree everywhere else. */
  predicate SameOutsideSpace(s: string, t: string) {
    && |s| == |t|
    && forall i :: 0 <= i < |s| ==> (IsSpace(s[i]) <==> IsSpace(t[i])) && (!IsSpace(s[i]) ==> s[i] == t[i])
  }

  lemma {:induction false} WordLenOutsideSpace(s: string, t: string)
    requires SameOutsideSpace(s, t)
    ensures WordLen(s) == WordLen(t)
    ensures s[..WordLen(s)] == t[..WordLen(t)]
    decreases |s|
  {
    if |s| > 0 && !IsSpace(s[0]) {
      WordLenOutsideSpace(s[1..], t[1..]);
      assert s[..WordLen(s)] == [s[0]] + s[1..][..WordLen(s[1..])];
      assert t[..WordLen(t)] == [t[0]] + t[1..][..WordLen(t[1..])];
    }
  }

  /** `split()` cannot tell one kind of whitespace from another: strings that
      differ only in which whitespace characters they hold have the same
      words. */
  lemma {:induction false} WordsOutsideSpace(s: string, t: string)
    requires SameOutsideSpace(s, t)
    ensures Words(s) == Words(t)
    decreases |s|
  {
    if |s| > 0 {
      if IsSpace(s[0]) {
        WordsOutsideSpace(s[1..], t[1..]);
      } else {
        WordLenOutsideSpace(s, t);
        var n := WordLen(s);
        WordsOutsideSpace(s[n..], t[n..]);
      }
    }
  }

  /** Position of the first `c` in `s`, or `|s|` when there is none. */
  function IndexOf(s: string, c: char): (k: nat)
    ensures k <= |s|
    ensures k < |s| ==> s[k] == c
    ensures forall i :: 0 <= i < k ==> s[i] != c
  {
    if |s| == 0 || s[0] == c then 0 else 1 + IndexOf(s[1..], c)
  }

  /** `s.replace(old, new)` for one-character `old` and `new`: the length is
      kept, every `old` becomes `new`, and every other character stays. */
  function ReplaceChar(s: string, from: char, to: char): (r: string)
    ensures |r| == |s|
    ensures forall i :: 0 <= i < |s| ==> r[i] == (if s[i] == from then to else s[i])
    decreases |s|
  {
    if |s| == 0 then ""
    else [if s[0] == from then to else s[0]] + ReplaceChar(s[1..], from, to)
  }

  /** Replacing works piecewise over a concatenation. */
  lemma ReplaceCharAppend(a: string, b: string, from: char, to: char)
    ensures ReplaceChar(a + b, from, to) == ReplaceChar(a, from, to) + ReplaceChar(b, from, to)
  {
    var ab := a + b;
    var r := ReplaceChar(ab, from, to);
    var ra, rb := ReplaceChar(a, from, to), ReplaceChar(b, from, to);
    var q := ra + rb;
    assert |r| == |q|;
    forall i | 0 <= i < |r| ensures r[i] == q[i] {
      if i < |a| {
        assert ab[i] == a[i];
        assert q[i] == ra[i];
      } else {
        assert ab[i] == b[i - |a|];
        assert q[i] == rb[i - |a|];
      }
    }
  }

  /** `s.replace(c, "")`: every occurrence of `c` deleted, the rest kept in order. */
  function RemoveChar(s: string, c: char): (r: string)
    ensures c !in r
    ensures |r| <= |s|
  {
    if |s| == 0 then ""
    else (if s[0] == c then "" else [s[0]]) + RemoveChar(s[1..], c)
  }

  /** A string without `c` is left as it is. */
  lemma {:induction false} RemoveCharAbsent(s: string, c: char)
    requires c !in s
    ensures RemoveChar(s, c) == s
    decreases |s|
  {
    if |s| > 0 {
      assert c !in s[1..] by {
        assert forall i :: 0 <= i < |s[1..]| ==> s[1..][i] == s[i + 1];
      }
      RemoveCharAbsent(s[1..], c);
      assert s == [s[0]] + s[1..];
    }
  }

  lemma {:induction false} RemoveCharAppend(a: string, b: string, c: char)
    ensures RemoveChar(a + b, c) == RemoveChar(a, c) + RemoveChar(b, c)
    decreases |a|
  {
    if |a| == 0 {
      assert a + b == b;
    } else {
      var h := if a[0] == c then "" else [a[0]];
      var x, y := RemoveChar(a[1..], c), RemoveChar(b, c);
      assert (a + b)[0] == a[0];
      assert (a + b)[1..] == a[1..] + b;
      RemoveCharAppend(a[1..], b, c);
      assert RemoveChar(a + b, c) == h + (x + y);
      assert h + (x + y) == (h + x) + y;
    }
  }

  /** A character other than `c` survives the deletion of `c`. */
  lemma {:induction false} RemoveCharKeepsOne(s: string, c: char, j: nat)
    requires j < |s| && s[j] != c
    ensures exists k :: 0 <= k < |RemoveChar(s, c)| && RemoveChar(s, c)[k] == s[j]
    decreases |s|
  {
    var r := RemoveChar(s, c);
    if j == 0 {
      assert r[0] == s[0];
    } else {
      RemoveCharKeepsOne(s[1..], c, j - 1);
      var k :| 0 <= k < |RemoveChar(s[1..], c)| && RemoveChar(s[1..], c)[k] == s[1..][j - 1];
      var p := if s[0] == c then "" else [s[0]];
      assert r == p + RemoveChar(s[1..], c);
      assert r[|p| + k] == s[j];
    }
  }

  /** Two characters other than `c` survive the deletion of `c` in their
      order. */
  lemma {:induction false} RemoveCharKeepsPair(s: string, c: char, i: nat, j: nat)
    requires i < j < |s| && s[i] != c && s[j] != c
    ensures exists k, l :: 0 <= k < l < |RemoveChar(s, c)| && RemoveChar(s, c)[k] == s[i] && RemoveChar(s, c)[l] == s[j]
    decreases |s|
  {
    var r := RemoveChar(s, c);
    var p := if s[0] == c then "" else [s[0]];
    assert r == p + RemoveChar(s[1..], c);
    if i == 0 {
      RemoveCharKeepsOne(s[1..], c, j - 1);
      var l :| 0 <= l < |RemoveChar(s[1..], c)| && RemoveChar(s[1..], c)[l] == s[1..][j - 1];
      assert r[0] == s[0] && r[1 + l] == s[j];
    } else {
      RemoveCharKeepsPair(s[1..], c, i - 1, j - 1);
      var k, l :| 0 <= k < l < |RemoveChar(s[1..], c)| && RemoveChar(s[1..], c)[k] == s[1..][i - 1]
        && RemoveChar(s[1..], c)[l] == s[1..][j - 1];
      assert r[|p| + k] == s[i] && r[|p| + l] == s[j];
    }
  }

  /** On a single character, deleting `c` drops it when it is `c` and keeps
      it otherwise: `c` is deleted, not replaced by something else. */
  lemma RemoveCharSingle(x: char, c: char)
    ensures x == c ==> RemoveChar([x], c) == ""
    ensures x != c ==> RemoveChar([x], c) == [x]
  {
    assert [x][1..] == "";
  }

  /** Removing one character never brings in another. */
  lemma {:induction false} RemoveCharKeeps(s: string, c: char, d: char)
    requires d !in s
    ensures d !in RemoveChar(s, c)
    decreases |s|
  {
    if |s| > 0 {
      assert d !in s[1..] by {
        assert forall i :: 0 <= i < |s[1..]| ==> s[1..][i] == s[i + 1];
      }
      RemoveCharKeeps(s[1..], c, d);
    }
  }

  /** Deleting a character that is at neither end keeps both ends. */
  lemma RemoveCharEnds(s: string, c: char)
    requires |s| > 0 && s[0] != c && s[|s| - 1] != c
    ensures var r := RemoveChar(s, c); |r| > 0 && r[0] == s[0] && r[|r| - 1] == s[|s| - 1]
  {
    var n := |s|;
    RemoveCharAppend(s[..n - 1], [s[n - 1]], c);
    assert s[..n - 1] + [s[n - 1]] == s;
    assert RemoveChar([s[n - 1]], c) == [s[n - 1]];
  }

  /** The non-whitespace characters of `s`, in order. */
  function Squeeze(s: string): (r: string)
    ensures NoSpace(r)
  {
    if |s| == 0 then ""
    else (if IsSpace(s[0]) then "" else [s[0]]) + Squeeze(s[1..])
  }

  lemma {:induction false} SqueezeAppend(a: string, b: string)
    ensures Squeeze(a + b) == Squeeze(a) + Squeeze(b)
    decreases |a|
  {
    if |a| == 0 {
      assert a + b == b;
    } else {
      assert (a + b)[1..] == a[1..] + b;
      SqueezeAppend(a[1..], b);
    }
  }

  lemma {:induction false} SqueezeNoSpace(s: string)
    requires NoSpace(s)
    ensures Squeeze(s) == s
  {
    if |s| > 0 {
      SqueezeNoSpace(s[1..]);
    }
  }

  /** The concatenation of a list of strings. */
  function Concat(ws: seq<string>): string {
    if |ws| == 0 then "" else ws[0] + Concat(ws[1..])
  }

  /** `split()` loses only whitespace: its words, glued together, are the
      input's non-whitespace characters in order. */
  lemma {:induction false} ConcatWords(s: string)
    ensures Concat(Words(s)) == Squeeze(s)
    decreases |s|
  {
    if |s| > 0 {
      if IsSpace(s[0]) {
        ConcatWords(s[1..]);
      } else {
        var n := WordLen(s);
        assert s == s[..n] + s[n..];
        SqueezeAppend(s[..n], s[n..]);
        SqueezeNoSpace(s[..n]);
        ConcatWords(s[n..]);
        assert Words(s)[1..] == Words(s[n..]);
      }
    }
  }

  /** `" ".join` adds only whitespace. */
  lemma {:induction false} SqueezeJoinWords(ws: seq<string>)
    requires WellFormedWords(ws)
    ensures Squeeze(JoinWords(ws)) == Concat(ws)
  {
    if |ws| == 1 {
      SqueezeNoSpace(ws[0]);
      assert Concat(ws[1..]) == "";
    } else if |ws| >= 2 {
      var w := ws[0];
      var rest := JoinWords(ws[1..]);
      SqueezeAppend(w + " ", rest);
      SqueezeAppend(w, " ");
      SqueezeNoSpace(w);
      assert Squeeze(" ") == "";
      SqueezeJoinWords(ws[1..]);
    }
  }

  /** A blank string has no words; a non-blank one has at least one. */
  lemma {:induction false} WordsEmptyIffBlank(s: string)
    ensures Words(s) == [] <==> IsBlank(s)
    decreases |s|
  {
    if |s| > 0 {
      if IsSpace(s[0]) {
        WordsEmptyIffBlank(s[1..]);
        assert IsBlank(s) <==> IsBlank(s[1..]) by {
          if IsBlank(s[1..]) {
            forall i | 0 <= i < |s| ensures IsSpace(s[i]) {
              if i > 0 {
                assert s[i] == s[1..][i - 1];
              }
            }
          }
        }
      }
    }
  }
}
